=== FILE: README.md ===
# Authentication, e-mail verification and RBAC of a FastAPI template, in Dafny

This project models the decision logic of the FastAPI/SQLAlchemy API
template (`qrcodedoesntcode/FastAPI-app-template`) and proves properties of
it. Every endpoint is a pure function. It takes the store and the request
and returns either the new store and the response, or the failure the
endpoint raises. The failure is an HTTP status with its fixed message, an
unhandled exception (500), or a failure inside a helper this model does not
describe.

The modules follow the repository:

| module | file | models |
|---|---|---|
| `Outcome` | outcome.dfy | results, HTTP failures, status codes, the lifetimes of `app/core/config.py` |
| `Crypto` | crypto.dfy | bcrypt and the JWT codec as uninterpreted functions with soundness predicates |
| `QueryFactory` | query_factory.dfy | `app/core/query_factory.py` over an in-memory keyed table |
| `UserCrud` | user_crud.dfy | `app/crud/admin.py` lookups and paging, `app/auth/crud.py` |
| `AuthSchema` | auth_schema.dfy | `app/auth/schema.py`: `Token`, `RefreshToken`, `TokenData` normalisation |
| `Security` | security.dfy | `app/core/security.py`: credentials, access-token claims, `check_jwt`, the active-user gate |
| `AuthV1` | auth_v1.dfy | `app/api/endpoints/v1/auth.py`: signup order, token pair, login, refresh |
| `UserEndpoints` | user_endpoints.dfy | `app/api/endpoints/user.py`: the 404 variant of the current-user lookup |
| `Storage` | storage.dfy | `app/resources/storage_method.py`: the revocation store, the Redis TTL, backend choice |
| `AuthRoutes` | auth_routes.dfy | `app/auth/routes.py`: signup, login, refresh with revocation, logout, e-mail verification |
| `CoreSchema` | core_schema.dfy | `app/modules/core/schema.py`: the role and permission request bodies |
| `CoreCrud` | core_crud.dfy | `app/modules/core/crud.py`: a user's roles and effective permissions |
| `CoreRoutes` | core_routes.dfy | `app/modules/core/routes.py`: role/permission CRUD, link/unlink, required scopes |

## Modelling choices

- **Two layers of persistence.** The repository keeps two snapshots of its
  persistence code.
  - The synchronous one (`app/crud/admin.py`, `app/crud/login.py`,
    `app/core/security.py`, `app/api/endpoints/*`) reads the `users` table of
    `app/models/user.py`. Here it is a sequence of typed `User` rows, in the
    order a query sees them, so `.first()` is the earliest match. The
    uniqueness checks and `create_new_user` of `app/auth/crud.py` are
    asynchronous and work on another table, `user` of
    `app/modules/users/models.py`. It has the same columns, so it is
    modelled with the same typed rows; which table a row sequence stands
    for is said where it matters.
  - The asynchronous one (`app/core/query_factory.py`, `app/auth/routes.py`,
    `app/modules/core/*`) works on any model class. Here a `Table` maps
    primary keys to records of column values. A key is never reused (`next`),
    and "the first row" a filter finds is the one with the least key.
- **Crypto is abstract.** bcrypt is a `Hasher`: a hash function of the
  password and a random salt, plus a verifier. The JWT library is a `Codec`:
  an encoder, and a decoder that also takes the current time. Lemmas that
  need more assume only two things. The verifier accepts the hash of the
  same password (`HasherSound`). Decoding an encoded token gives back its
  claims until its expiry second and fails afterwards (`CodecSound`), as
  jose does when it rejects `exp < now`. One codec, and so one signing
  key, signs both tokens and checks them in `check_jwt` (see "## Left
  out").
- **Clocks are parameters.** Times are integer epoch seconds passed in as
  `now`. The Redis TTL uses microseconds so that `int()` truncation can be
  modelled.
- **Python semantics are written out.**
  - A zero `timedelta` is falsy, so it falls back to 15 minutes.
  - A NULL `is_active` is falsy.
  - `int()` truncates toward zero.
  - pydantic's `strip_whitespace` removes exactly the characters with the
    Unicode White_Space property. This is fewer than Python's
    `str.isspace()` accepts: the separators U+001C–U+001F are kept.
  - `list.remove` drops the first occurrence.
  - A filter `column == None` is `IS NULL`.
- **`TokenData` is the one in `app/auth/schema.py`.** `check_jwt` imports
  `TokenData` from `app/schemas/auth.py`, but that file's snapshot defines no
  such class. The only `TokenData` in the repository is in
  `app/auth/schema.py`, which strips, bounds the length to 4..20 and
  lower-cases. `check_jwt` then looks the user up by the normalised name. A
  subject that validation rejects raises a pydantic `ValidationError`. That
  is not a `JWTError`, so it escapes as a 500.
- **An absent `is_active` takes the column default.** `UserCreate` leaves
  `is_active` as `None` when the form omits it, and the ORM then leaves the
  column out of the INSERT, so the column default is stored. The two user
  models disagree on it. `app/modules/users/models.py:12` defaults to
  False; the v1 auth routes use this model through `app/auth/crud.py`.
  `app/models/user.py:13` defaults to True; `app/crud/login.py` uses it for
  the endpoint signup. `UserCrud.CreateNewUser` takes the default as a
  parameter, and each caller passes its own model's.
- **Helpers that are called but not present become parameters.** Their
  results are passed on untouched. This covers `validate_refresh_token`,
  `generate_access_refresh_token`, `check_user_auth` and
  `generate_email_token`, the token passed in. `create_jwt_token` is taken to
  build the claims of `create_access_token` and add a `scope` claim.
  `add_token_to_blacklist` is taken to record the token in the local store.
  `get_specific` is taken to return the first row matching its filters and
  to fail otherwise; its failure is left open.
- **Pivot tables and cascades.** The pivot tables `cre_user_role` and
  `cre_role_permission` are, per owner, the list of linked ids in link
  order. `app/modules/core/models.py` declares them `ondelete="CASCADE"`, so
  deleting a role or permission also removes its links.
- **Delegating routes.** `get_specific_role`, `get_specific_permission`,
  `get_specific_user_roles` and `get_specific_user_permission` are
  `QueryFactory.GetSpecificById`, `CoreCrud.GetUserRoles` and
  `CoreCrud.GetUserPermission` on the corresponding table. `is_active` of
  `app/crud/admin.py` is the stored field `User.isActive` itself.

What the code does and does not do with tokens and permissions:
- Token claims are the caller's data plus `exp`. There are no `iat`, `nbf`,
  `iss`, `jti` or type claims.
- The refresh token, not the access token, carries a scope: the tag
  `"refresh_token"`.
- Effective permissions are a concatenation with duplicates, not a set
  union.
- No "admin" wildcard and no blacklist check on incoming tokens appear in
  any code shown, so neither is modelled.

## Model

| member | source | states |
|---|---|---|
| QueryFactory.GetAll | app/core/query_factory.py:15-22 | returns one entry per row of the table, each with its own record, and every row appears |
| QueryFactory.GetSpecificById | app/core/query_factory.py:25-39 | the row with that key, or 404 "<Model> not found" exactly when no row has it |
| QueryFactory.DeleteById | app/core/query_factory.py:42-62 | 404 for an absent key; otherwise only that row is gone, every other row is untouched, and the answer is `{status: True, msg: "Deleted"}` |
| QueryFactory.FirstMatch | app/core/query_factory.py:72-73 | `.first()` of a filtered select: none exactly when no row satisfies every filter, otherwise the least key that does |
| QueryFactory.CheckIfExists | app/core/query_factory.py:65-80 | 400 "<Model> already exists" if and only if some row satisfies all filters, otherwise `False` |
| QueryFactory.Dump | app/core/query_factory.py:93-96 | a dict is used as it is; a schema yields only the fields the client set (`exclude_unset`) |
| QueryFactory.CreateEntry | app/core/query_factory.py:83-103 | exactly one row is added, under a key never used before, holding the dumped payload; the other rows are unchanged |
| QueryFactory.UpdateEntry | app/core/query_factory.py:106-126 | 404 for an absent key; otherwise the supplied columns take the new values, the other columns and every other row are unchanged |
| UserCrud.First | app/crud/admin.py:6-11 | `.filter(...).first()`: none if and only if no row matches, otherwise a matching row with no match before it |
| UserCrud.FirstIsEarliest | app/crud/admin.py:7 | whenever row i matches and no earlier row does, the lookup returns row i |
| UserCrud.GetUserById | app/crud/admin.py:6-7 | None exactly when no user has that id; otherwise the user at the earliest index with that id, also when several rows share it |
| UserCrud.GetUserByEmail | app/crud/admin.py:10-11 | None exactly when no user has that email; otherwise the user at the earliest index with that email, also when several rows share it |
| UserCrud.GetUserByUsername | app/crud/admin.py:18-19 | None exactly when no user has that username; otherwise the user at the earliest index with that username, also when several rows share it |
| UserCrud.GetAllUsers | app/crud/admin.py:14-15 | skips `(page-1)*per_page` rows and returns the next at most `per_page` rows in order; a negative limit or offset fails |
| UserCrud.DefaultListingIsPrefix | app/crud/admin.py:14-15 | called with its defaults (page 1, 100 per page), the listing is the first 100 rows |
| UserCrud.PageOneIsPrefix | app/crud/admin.py:15 | page 1 is the first `per_page` rows |
| UserCrud.PagesAreContiguous | app/crud/admin.py:15 | pages p and p+1 together are the consecutive slice starting at page p's offset: no row is repeated or skipped |
| UserCrud.FirstPagesArePrefix | app/crud/admin.py:14-15 | reading pages 1..k in turn gives exactly the first k·per_page rows |
| UserCrud.CheckUsernameIsTaken | app/auth/crud.py:11-19 | 400 USERNAME_TAKEN if and only if some user has the username, otherwise `False` |
| UserCrud.CheckEmailIsTaken | app/auth/crud.py:22-31 | 400 EMAIL_TAKEN if and only if some user has the email, otherwise `False` |
| UserCrud.CreateNewUser | app/auth/crud.py:34-43 | the table gains exactly one row, with the input's username and email and the hash of the password, not the password; the active flag is the input's when given and the model's column default when absent |
| AuthSchema.ValidateTokenData | app/auth/schema.py:14-17 | an absent username is accepted; otherwise accepted exactly when the text with Unicode White_Space stripped from both ends is 4 to 20 characters long, and the result is in normal form (trimmed, ASCII lower-cased) |
| AuthSchema.TokenDataNormalises | app/auth/schema.py:15-17 | an accepted username is the input with whitespace removed from both ends and ASCII lower-cased, and nothing else changed |
| AuthSchema.NormalIffUnchanged | app/auth/schema.py:15-17 | validation leaves a username unchanged if and only if it is already trimmed, free of ASCII capitals and 4 to 20 long |
| AuthSchema.ValidateIdempotent | app/auth/schema.py:15-17 | validating an already validated username changes nothing |
| AuthSchema.StripKeepsTrimmed | app/auth/schema.py:16 | stripping text that has no whitespace at either end changes nothing |
| Security.AuthenticateUser | app/core/security.py:27-33 | an unknown username and a wrong password both give no user; otherwise the first user with that username, whose stored hash verifies the password |
| Security.AccessTokenClaims | app/core/security.py:36-42 | expiry is now + delta for a truthy delta and now + 15 minutes otherwise (a zero delta included); the claims are the caller's data plus `exp` |
| Security.CreateAccessToken | app/core/security.py:36-44 | under a sound codec the token decodes to the caller's data (without `exp`) up to its expiry second, now + delta or now + 15 minutes, and is refused after it |
| Security.CheckJwt | app/core/security.py:47-64 | 401 with a Bearer challenge when the token fails to decode or has no `sub`, or when no user has the normalised subject; a subject validation rejects gives a 500; otherwise the earliest user whose username is the normalised subject |
| Security.CheckJwtNormalSubject | app/core/security.py:58-64 | for a subject already in normal form, the gate returns the first user with exactly that username, or 401 when there is none |
| Security.GetCurrentActiveUser | app/core/security.py:67-72 | 400 "Inactive user" if and only if the flag is not true (NULL included); an active user is passed on unchanged |
| Security.CurrentActiveUser | app/core/security.py:67 | the token checks run first, so their failure is the answer even for an inactive user; success means a valid token for an active user |
| AuthV1.CreateUser | app/api/endpoints/v1/auth.py:22-40 | closed registration gives 403, then a taken username 400, then a taken email 400; a user is created if and only if registration is open and both are free |
| AuthV1.TokenPairClaims | app/api/endpoints/v1/auth.py:43-56 | both tokens carry `sub` = username; access lives 15 minutes and has no other claim; refresh lives 10080 minutes and carries scope `"refresh_token"` |
| AuthV1.LoginForAccessToken | app/api/endpoints/v1/auth.py:59-77 | fails if and only if authentication fails, with 401 INCORRECT_USER_PASSWORD and a Bearer challenge; otherwise both tokens for the authenticated user, typed "bearer" |
| AuthV1.RefreshAccessToken | app/api/endpoints/v1/auth.py:80-92 | the pair is issued for exactly the user `validate_refresh_token` returns, and its failure is passed on |
| AuthV1.SignupThenLogin | app/api/endpoints/v1/auth.py:63-71 | with a sound hasher, and with signup and login working on one table, a user who just signed up authenticates with the same password and receives tokens for that very user |
| AuthV1.LoginFailuresAlike | app/api/endpoints/v1/auth.py:63-69 | a wrong password gives the same answer as an unknown username |
| AuthV1.AccessTokenLifetime | app/api/endpoints/v1/auth.py:43-47 | with a sound codec, the login access token passes `check_jwt` for its user up to and including its 15-minute expiry second, and gives 401 afterwards |
| AuthV1.RefreshTokenClaims | app/api/endpoints/v1/auth.py:49-54 | the refresh token decodes to the user's `sub`, the refresh scope, and an expiry 10080 minutes after issue |
| UserEndpoints.GetCurrentUser | app/api/endpoints/user.py:17-39 | 401 for a token without a valid `sub`; 404 USER_NOT_FOUND if and only if no user has the raw subject; otherwise the earliest user with that username |
| UserEndpoints.CreateUser | app/api/endpoints/user.py:42-55 | username is checked before email, each giving 400; succeeds exactly when neither is taken, adding exactly one row whose `is_active` is the input's, or True (the `app/models/user.py` default) when absent |
| UserEndpoints.GetSpecificUser | app/api/endpoints/user.py:58-65 | 404 USER_NOT_FOUND if and only if no user has the id |
| UserEndpoints.SignupVariantsAgree | app/api/endpoints/user.py:42-55 | with registration open, the endpoint signup and the v1 signup fail and succeed on the same requests with the same errors; when `is_active` is given they store the same row, and when it is absent the rows differ only in `is_active`: True here, False in v1 |
| UserEndpoints.GatesDifferOnUnknownUser | app/api/endpoints/user.py:34-38 | for an unknown user this gate answers 404 where `check_jwt` answers 401; for a known user whose name is in normal form both succeed with the same user |
| Storage.Fresh | app/resources/storage_method.py:9-10 | a new store contains no key |
| Storage.SetKey | app/resources/storage_method.py:15-17 | the key is contained with the new expiry; every other key keeps its membership and its value |
| Storage.ContainedStaysContained | app/resources/storage_method.py:8-17 | there is no removal: a contained key stays contained through any writes |
| Storage.ContainsIffWritten | app/resources/storage_method.py:12-17 | after a run of writes, a key is contained if and only if it was there or was written, and its value is the last write's |
| Storage.SetAllUntouched | app/resources/storage_method.py:15-17 | writes to other keys leave a key's entry as it was |
| Storage.SetKeyIdempotent | app/resources/storage_method.py:15-17 | writing the same key and expiry twice is the same as once |
| Storage.TruncateSeconds | app/resources/storage_method.py:32 | `int()` of the epoch time truncates toward zero, for negative times as well |
| Storage.RedisTtl | app/resources/storage_method.py:31-33 | the TTL is the expiry minus the current epoch second, truncated |
| Storage.RedisTtlPositive | app/resources/storage_method.py:32 | the TTL is positive exactly when the expiry lies beyond the current whole second |
| Storage.SelectBackend | app/resources/storage_method.py:36 | the local backend is chosen if and only if `REDIS_CONNECTION` is false |
| AuthRoutes.GetSpecific | app/auth/routes.py:121-123 | the first row satisfying the filters, or a failure exactly when none does |
| AuthRoutes.UserByReference | app/auth/routes.py:125 | the user a verification's `user_id` names, or a failure exactly when there is none |
| AuthRoutes.SignupWrites | app/auth/routes.py:44-60 | one new inactive user with the hash of the password, one verification record with the token, the user's id and an expiry 24 hours from now, and one profile holding only the user id |
| AuthRoutes.Signup | app/auth/routes.py:33-71 | closed registration gives 403, then a taken username or email 400 "User already exists"; writes happen if and only if both checks pass |
| AuthRoutes.Login | app/auth/routes.py:80-84 | fails exactly when `check_user_auth` or generation fails; otherwise the pair issued for the checked user |
| AuthRoutes.Refresh | app/auth/routes.py:94-103 | on any failure the store is unchanged; on success the presented refresh token is recorded, and no other key changes membership |
| AuthRoutes.RevokedStaysRevoked | app/auth/routes.py:101 | once recorded, a refresh token stays recorded through any later refreshes |
| AuthRoutes.Logout | app/auth/routes.py:109-111 | no server state changes and the answer is LOGGED_OUT |
| AuthRoutes.VerifyEmail | app/auth/routes.py:120-136 | an unknown token fails; an existing record whose expiry is strictly before now gives 400 TOKEN_EXPIRED; on success the user becomes active, the record is deleted, and nothing else changes |
| AuthRoutes.ResendVerificationEmail | app/auth/routes.py:145-178 | an already active user gives 400 EMAIL_ALREADY_VERIFIED; a resend succeeds exactly when the e-mail names an inactive user that has a verification record, and then that record gets the new token and a 24-hour expiry in place, and no record is added or removed |
| AuthRoutes.SignupKeepsConsistent | app/auth/routes.py:41-60 | with a fresh e-mail token, signup keeps usernames, emails and tokens unique, at most one record per user, and every record pending for an inactive user |
| AuthRoutes.VerifyKeepsConsistent | app/auth/routes.py:127-134 | verifying keeps that invariant |
| AuthRoutes.ResendKeepsConsistent | app/auth/routes.py:150-167 | re-sending with a fresh token keeps that invariant |
| AuthRoutes.VerifyPending | app/auth/routes.py:121-136 | in a consistent store a pending record's token verifies exactly until its expiry, activating its user, and gives 400 TOKEN_EXPIRED after it |
| AuthRoutes.SignupThenVerify | app/auth/routes.py:127-134 | the token of a fresh signup activates the new user when presented within 24 hours, and is refused as expired afterwards |
| AuthRoutes.VerifiedCannotResend | app/auth/routes.py:150-154 | a user whose e-mail was verified gets 400 EMAIL_ALREADY_VERIFIED on a resend request |
| AuthRoutes.ResendThenVerify | app/auth/routes.py:160-165 | after a resend the new token verifies for 24 hours from the resend, and is refused as expired afterwards |
| CoreSchema.Parse | app/modules/core/schema.py:17-19 | a body is accepted exactly when every declared field accepts its value; the set fields are the declared ones the body names |
| CoreSchema.ParseRoleUpdate | app/modules/core/schema.py:17-19 | a name, when given, has 3 to 50 characters and a description at most 255; both may be null or absent, and only the given ones are set |
| CoreSchema.ParseRoleCreate | app/modules/core/schema.py:22-24 | name and description are both required strings |
| CoreSchema.ParsePermissionUpdate | app/modules/core/schema.py:48-59 | a scope, when given, has 1 to 255 characters; the description is any string; both are optional |
| CoreSchema.ParsePermissionCreate | app/modules/core/schema.py:62-64 | scope and description are both required strings |
| CoreSchema.EmptyUpdatesWriteNothing | app/modules/core/schema.py:17-19 | the empty body is accepted by both update schemas and writes nothing |
| CoreCrud.GetUserRoles | app/modules/core/crud.py:11-28 | 404 USER_NOT_FOUND for an unknown user and also for a user with no role (the inner join); otherwise the user's id, username and linked roles |
| CoreCrud.GetUserPermission | app/modules/core/crud.py:31-47 | 404 USER_NOT_FOUND if and only if the user is unknown; the result carries the user's id and username, and no roles means no permissions |
| CoreCrud.PermissionsViaAppend | app/modules/core/crud.py:41-43 | the permissions of two role lists in turn are the permissions of the first followed by those of the second |
| CoreCrud.PermissionsViaMembership | app/modules/core/crud.py:41-43 | a permission is effective if and only if one of the roles grants it |
| CoreCrud.PermissionsViaCount | app/modules/core/crud.py:41-43 | a permission appears as many times as the roles grant it, all together: nothing is merged |
| CoreCrud.SharedPermissionRepeats | app/modules/core/crud.py:41-43 | two roles granting the same permission make it appear at least twice |
| CoreCrud.UserPermissionsAreGranted | app/modules/core/crud.py:31-47 | a user's effective permissions are exactly those its roles grant, each as often as it is granted |
| CoreRoutes.RemoveFirst | app/modules/core/routes.py:207 | removes exactly one occurrence, the first, and keeps the order of the rest |
| CoreRoutes.CascadeDelete | app/modules/core/models.py:9-19 | every owner loses every link to the deleted row and keeps all other links |
| CoreRoutes.CreateUnique | app/modules/core/routes.py:80-81 | 400 "<Model> already exists" if and only if a row holds the value; otherwise exactly one new row |
| CoreRoutes.InsertRole | app/modules/core/routes.py:73-81 | 422 for a body without both fields, 400 "Role already exists" for a taken name; otherwise exactly one new role and nothing else changes |
| CoreRoutes.InsertPermission | app/modules/core/routes.py:310-318 | as for roles, on the scope: 422, then 400 "Permission already exists", else one new permission |
| CoreRoutes.CreateRole | app/modules/core/routes.py:66-81 | 422 for a bad body and 400 for a taken name, both leaving the tables unchanged; otherwise the role is stored, and the reply is the role exactly when its name is 3 to 50 characters and its description at most 255 (the `RoleBase` response model), else a 500 with the role still stored and nothing else changed |
| CoreRoutes.CreatePermission | app/modules/core/routes.py:303-318 | as for roles: 422, then 400, with no change; otherwise the permission is stored, and the reply is the permission exactly when its scope is 1 to 255 characters (`PermissionBase`), else a 500 with the permission still stored |
| CoreRoutes.UpdateUnique | app/modules/core/routes.py:98-100 | the uniqueness check runs before the 404 and does not exclude the row itself; on success only the supplied columns change |
| CoreRoutes.UpdateRole | app/modules/core/routes.py:90-100 | 422 for a rejected body; 400 when any role, this one included, has the given name (NULL when none is given); then 404; on success only the supplied columns of this role change |
| CoreRoutes.UpdatePermission | app/modules/core/routes.py:327-337 | as for roles, on the scope |
| CoreRoutes.DeleteRole | app/modules/core/routes.py:109-116 | 404 for an unknown role; otherwise the role is gone, from every user's roles as well, and its permission links with it |
| CoreRoutes.DeletePermission | app/modules/core/routes.py:346-353 | 404 for an unknown permission; otherwise it is gone, from every role's permissions as well |
| CoreRoutes.LinkRoleToUser | app/modules/core/routes.py:141-157 | 404 for an unknown user, then for an unknown role; otherwise a role the user lacked is appended to that user's roles only, a role already held changes nothing, and the returned roles (as `get_user_roles` gives them) include it |
| CoreRoutes.UnlinkRoleFromUser | app/modules/core/routes.py:189-210 | 404s as for linking; 400 "User doesn't have this role" when not held; otherwise exactly one occurrence leaves that user's roles and the answer is status True |
| CoreRoutes.GetRolePermission | app/modules/core/routes.py:166-180 | 404 for an unknown role; otherwise its id, name, description and exactly its linked permissions |
| CoreRoutes.LinkRoleToPermission | app/modules/core/routes.py:219-240 | 404 for an unknown role, then for an unknown permission; otherwise a permission the role lacked is appended to that role's only, one already granted changes nothing, and the reply is exactly what `get_role_permission` answers for the role afterwards |
| CoreRoutes.UnlinkRoleFromPermission | app/modules/core/routes.py:249-270 | 404s as for linking; 400 "Role doesn't have this permission" when not granted; otherwise exactly one occurrence leaves that role's permissions |
| CoreRoutes.LinkThenUnlinkRestores | app/modules/core/routes.py:149-210 | unlinking a role just linked to a user who lacked it gives every user back exactly the roles they had |
| CoreRoutes.LinkThenUnlinkPermissionRestores | app/modules/core/routes.py:227-270 | the same for a permission and a role |
| CoreRoutes.UnlinkRoleDropsItsGrants | app/modules/core/routes.py:207 | unlinking a role takes away exactly the grants that role contributed to the user's effective permissions |
| CoreRoutes.LinkKeepsLinksExist | app/modules/core/routes.py:149-154 | linking keeps every user–role link between existing rows |
| CoreRoutes.UnlinkKeepsLinksExist | app/modules/core/routes.py:207-208 | unlinking keeps every user–role link between existing rows |
| CoreRoutes.LinkPermissionKeepsLinksExist | app/modules/core/routes.py:227-232 | linking keeps every role–permission link between existing rows |
| CoreRoutes.UnlinkPermissionKeepsLinksExist | app/modules/core/routes.py:267-268 | unlinking keeps every role–permission link between existing rows |
| CoreRoutes.RemoveFirstDistinct | app/modules/core/routes.py:207 | on a list without repeats, `list.remove` leaves no occurrence of the element and no repeat |
| CoreRoutes.WithoutDistinct | app/modules/core/models.py:9-19 | the cascade keeps a list without repeats free of repeats |
| CoreRoutes.AppendFreshDistinct | app/modules/core/routes.py:152 | appending an id a list lacks keeps it free of repeats |
| CoreRoutes.UserLinksStayDistinct | app/modules/core/routes.py:141-210 | if no user holds a role twice before linking or unlinking, none does after |
| CoreRoutes.PermissionLinksStayDistinct | app/modules/core/routes.py:219-270 | if no role holds a permission twice before linking or unlinking, none does after |
| CoreRoutes.DeletesKeepLinksDistinct | app/modules/core/routes.py:109-116 | deleting a role or a permission keeps every pivot list free of repeats |
| CoreRoutes.WritesKeepLinks | app/modules/core/routes.py:73-100 | creating and updating roles and permissions leave both pivot lists unchanged, a create answered with 500 included |
| CoreRoutes.LinkTwiceIsOnce | app/modules/core/routes.py:141-157 | linking the same pair a second time gives the same store and reply as linking it once |
| CoreRoutes.LinkThenUnlinkDrops | app/modules/core/routes.py:141-210 | with no repeated links, linking a role and then unlinking it leaves the user without the role, whether or not the user held it before |
| CoreRoutes.LinkThenUnlinkPermissionDrops | app/modules/core/routes.py:219-270 | the same for a permission and a role |
| CoreRoutes.DeleteKeepsLinksExist | app/modules/core/models.py:9-19 | thanks to the cascade, deleting a role or permission leaves no dangling link |
| CoreRoutes.ScopesOfRoutes | app/modules/core/routes.py:42-353 | every route asks for "admin" plus exactly one other scope; that scope is declared in `app/core/permissions.py` for every route except the two update routes |

## Left out

- The scope-enforcing guard `Security(get_current_active_user, scopes=[...])` is not modelled. Its code is not in the repository, so what it does with the scope lists is unknown. The lists are modelled as data (`CoreRoutes.RequiredScopes`).
- bcrypt and JWT signing are uninterpreted. Only the soundness predicates relate their functions, and only lemmas that state them as hypotheses use them.
- Database sessions, commits, refreshes and async execution are left out: each route is one atomic step on in-memory tables.
- `RedisStorage` talks to a server over the network; only its TTL arithmetic is kept. A Redis key's lifetime is left out.
- E-mail rendering and sending, and `request.url_for`, are side effects after the state change; they are left out.
- `get_all_roles`, `get_all_permissions` and `get_all_paginate` are left out: they are the fastapi_pagination wrapper over `select(model)`. The rows they page over are `QueryFactory.GetAll`.
- Storage.SetKey: `LocalStorage` stores `str(datetime.fromtimestamp(t))`, a local-time rendering; the model stores the timestamp itself.
- AuthRoutes.Refresh: whether `validate_refresh_token` rejects a token already recorded in the store is not visible, so the model does not claim that a refresh token can be used only once.
- AuthRoutes.GetSpecific: the failure when no row matches is left open (`Unmodelled`), because `get_specific` is not in the repository.
- AuthRoutes.VerifyEmail: an `expires_at` that is not a timestamp fails as an internal error. The column is `nullable=False`, so this case does not arise from the routes modelled here.
- AuthSchema.Lower: lower-cases ASCII `A`–`Z` only, where pydantic's `to_lower` also maps other scripts. For Unicode letters outside ASCII the model's normal form is therefore weaker than pydantic's.
- UserEndpoints.GatesDifferOnUnknownUser: the lemma assumes both gates decode with one codec. The endpoint gate in `app/api/endpoints/user.py:27` decodes with `Config.SECRET_KEY`, which `app/core/config.py` does not declare, while `check_jwt` uses `settings.JWT_KEY`. If the keys differ, a token that one gate accepts may fail the other with 401.
- CoreRoutes.CreateRole: a role or permission stored by a create that then answered 500 is read back unchecked by the model's get, update and link routes, which do not repeat the response-model check.
- Security.CheckJwt: the user lookup in this snapshot is synchronous, and a username column matched case-sensitively is assumed.
- Security.CheckJwt: one signing key is assumed for both tokens and for the gate. `app/core/security.py` signs and decodes with `settings.JWT_KEY`, which `app/core/config.py` does not declare; it declares separate `JWT_ACCESS_TOKEN_KEY` and `JWT_REFRESH_TOKEN_KEY`. Under this reading a refresh token also passes the gate.
- AuthV1.AccessTokenLifetime: holds under the single-key reading above. With separate keys the gate's key is unknown, and so is whether the access token passes it.
- AuthV1.CreateUser: the v1 routes are modelled against the helpers they expect, not the snapshot's own. `create_new_user` is imported from `app/crud/auth.py`, which does not define it, and the synchronous checks are awaited.
- AuthV1.SignupThenLogin: the lemma assumes that the table the signup writes is the table login reads. Under the reading modelled here they differ: signup goes through `app/auth/crud.py` to the `user` table of `app/modules/users/models.py`, while `authenticate_user` reads the `users` table of `app/models/user.py` through `app/crud/admin.py`. The chain holds only where both models are mapped to one table.
- AuthV1.LoginForAccessToken: it awaits the synchronous `authenticate_user`. The model takes the call to return the user or `False`, as `authenticate_user` does.
- CoreRoutes.LinkRoleToUser: the pivot helper `pivot_table` is not in the repository. Linking a pair that is already linked is modelled as a no-op. The loaded collection already holds that object, and the ORM's collection history is identity-based, so it inserts no second pivot row; the reload lists the object once. A store that already holds a repeated pair, written outside these routes, is not excluded by the routes' contracts; the lemmas about repeats take a store without them.
- The ORM model declarations in `app/modules/core/models.py` are used only as record shapes and for their `ondelete="CASCADE"`. Column length limits such as `String(50)` are not enforced.
- Request-body validation beyond the four role/permission schemas is left out. That covers `UserCreate`'s `EmailStr` and the user schemas of other snapshots: a signup form is taken as already valid.

=== FILE: auth_routes.dfy ===
/** app/auth/routes.py: signup with e-mail verification, token refresh with
    revocation of the presented refresh token, logout, and the
    verification state machine. A new user is stored inactive together with
    one verification record and one empty profile; presenting the record's
    token no later than its expiry activates the user and deletes the
    record; until then the record can be re-issued in place.

    Helpers this file imports but that are not part of this model are
    parameters: `check_user_auth`, `validate_refresh_token` (`validate`),
    `generate_access_refresh_token` (`generate`), `generate_email_token`
    (the token passed in), and `add_token_to_blacklist`, taken to record the
    presented token in the local store with the expiry passed in.
    `get_specific` is taken to return the first row (in key order) that
    satisfies its filters and to fail, in a way this model leaves open, when
    none does. */
module AuthRoutes {
  import opened Outcome
  import opened Crypto
  import opened QueryFactory
  import opened AuthSchema
  import Storage

  const EmailTokenLifetimeSeconds: int := EmailTokenExpireHours * 60 * 60

  /** The three tables the auth routes touch. */
  datatype AuthDb = AuthDb(users: Table, verifications: Table, profiles: Table) {
    predicate Valid() {
      users.Valid() && verifications.Valid() && profiles.Valid()
    }
  }

  /** Success messages of the routes. */
  datatype Message = LoggedOut | EmailVerified | EmailSent

  /** The signup body (UserCreate); its optional `is_active` is ignored. */
  datatype SignupForm = SignupForm(username: string, email: string, password: string)

  /** get_specific. */
  function GetSpecific(t: Table, fs: Filter): (r: Result<Row>)
    requires t.Valid()
    ensures r.Ok? <==> FirstMatch(t, fs).Some?
    ensures r.Ok? ==> r.value.id == FirstMatch(t, fs).value && r.value.fields == t.rows[r.value.id]
  {
    match FirstMatch(t, fs)
    case None => Err(Unmodelled("get_specific"))
    case Some(id) => Ok(Row(id, t.rows[id]))
  }

  /** `get_specific(db, User, [User.id == value])`: the user a foreign key names. */
  function UserByReference(users: Table, ref: Value): (r: Result<Row>)
    ensures r.Ok? <==> ref.Int? && ref.i >= 0 && ref.i as nat in users.rows
    ensures r.Ok? ==> r.value.id == ref.i && r.value.fields == users.rows[r.value.id]
  {
    if ref.Int? && ref.i >= 0 && ref.i as nat in users.rows then Ok(Row(ref.i as nat, users.rows[ref.i as nat]))
    else Err(Unmodelled("get_specific"))
  }

  /** `before` gained exactly one row, holding `rec`, under an unused key. */
  ghost predicate AddsOneRow(before: Table, after: Table, rec: Record)
  {
    exists id: nat :: id !in before.rows && after.rows == before.rows[id := rec]
  }

  function TokenFilter(token: string): Filter
  {
    [("token", Str(token))]
  }

  // ---------------------------------------------------------------------
  // Signup

  /** The user row signup writes. */
  function NewUserRecord(h: Hasher, form: SignupForm, salt: nat): Record
  {
    map["username" := Str(form.username), "email" := Str(form.email),
        "password" := Str(h.hash(form.password, salt)), "is_active" := Bool(false)]
  }

  /** The columns of that row. */
  lemma NewUserColumns(h: Hasher, form: SignupForm, salt: nat)
    ensures var rec := NewUserRecord(h, form, salt);
            && Column(rec, "username") == Str(form.username)
            && Column(rec, "email") == Str(form.email)
            && Column(rec, "password") == Str(h.hash(form.password, salt))
            && Column(rec, "is_active") == Bool(false)
  {
  }

  /** The verification record signup writes for user `uid`. */
  function PendingVerification(emailToken: string, uid: nat, now: int): Record
  {
    map["token" := Str(emailToken), "user_id" := Int(uid), "expires_at" := Int(now + EmailTokenLifetimeSeconds)]
  }

  /** What create_user writes once its checks pass: the user, stored
      inactive with the bcrypt hash of the password, one verification record
      expiring 24 hours from now, and one empty profile. */
  function SignupWrites(db: AuthDb, h: Hasher, form: SignupForm, salt: nat, emailToken: string, now: int)
    : (r: (AuthDb, Row))
    requires db.Valid()
    ensures r.0.Valid()
    ensures r.1.id !in db.users.rows && r.0.users.rows == db.users.rows[r.1.id := r.1.fields]
    ensures Column(r.1.fields, "username") == Str(form.username)
    ensures Column(r.1.fields, "email") == Str(form.email)
    ensures Column(r.1.fields, "password") == Str(h.hash(form.password, salt))
    ensures Column(r.1.fields, "is_active") == Bool(false)
    ensures AddsOneRow(db.verifications, r.0.verifications, PendingVerification(emailToken, r.1.id, now))
    ensures AddsOneRow(db.profiles, r.0.profiles, map["user_id" := Int(r.1.id)])
  {
    var rec := NewUserRecord(h, form, salt);
    NewUserColumns(h, form, salt);
    var created := CreateEntry(db.users, Dict(rec));
    assert created.1.fields == rec;
    var user := created.1;
    var pending := PendingVerification(emailToken, user.id, now);
    var profileRecord := map["user_id" := Int(user.id)];
    CreateAddsOneRow(db.verifications, pending);
    CreateAddsOneRow(db.profiles, profileRecord);
    (AuthDb(created.0, CreateEntry(db.verifications, Dict(pending)).0,
            CreateEntry(db.profiles, Dict(profileRecord)).0), user)
  }

  /** Writing a dict into a valid table adds exactly that one row. */
  lemma CreateAddsOneRow(t: Table, rec: Record)
    requires t.Valid()
    ensures CreateEntry(t, Dict(rec)).0.Valid() && AddsOneRow(t, CreateEntry(t, Dict(rec)).0, rec)
  {
    var r := CreateEntry(t, Dict(rec));
    assert Dump(Dict(rec)) == rec;
    assert r.1.id !in t.rows && r.0.rows == t.rows[r.1.id := rec];
  }

  /** create_user. Registration closed gives 403 before anything is read;
      a taken username and then a taken email give 400 "User already
      exists"; only a request that passes both checks writes anything. */
  function Signup(db: AuthDb, openRegistration: bool, h: Hasher, form: SignupForm, salt: nat,
                  emailToken: string, now: int): (r: Result<(AuthDb, Row)>)
    requires db.Valid()
    ensures !openRegistration ==> FailedWith(r, Forbidden, ClosedRegistration)
    ensures openRegistration && (exists k :: k in db.users.rows && Column(db.users.rows[k], "username") == Str(form.username))
            ==> FailedWith(r, BadRequest, ModelExists(db.users.name))
    ensures openRegistration && (exists k :: k in db.users.rows && Column(db.users.rows[k], "email") == Str(form.email))
            ==> FailedWith(r, BadRequest, ModelExists(db.users.name))
    ensures r.Ok? <==> openRegistration
                       && (forall k :: k in db.users.rows ==>
                             Column(db.users.rows[k], "username") != Str(form.username)
                             && Column(db.users.rows[k], "email") != Str(form.email))
    ensures r.Ok? ==> r.value == SignupWrites(db, h, form, salt, emailToken, now)
  {
    if !openRegistration then Raise(Forbidden, ClosedRegistration)
    else
      SingleFilter("username", Str(form.username));
      SingleFilter("email", Str(form.email));
      var usernameTaken :- CheckIfExists(db.users, [("username", Str(form.username))]);
      var emailTaken :- CheckIfExists(db.users, [("email", Str(form.email))]);
      Ok(SignupWrites(db, h, form, salt, emailToken, now))
  }

  // ---------------------------------------------------------------------
  // Refresh and logout

  /** login_for_access_token: the user `check_user_auth` returns, then the
      pair `generate_access_refresh_token` issues for that user; a failure of
      either is the route's failure. */
  function Login(checkUserAuth: (string, string) -> Result<Row>, generate: Row -> Result<Token>,
                 username: string, password: string): (r: Result<Token>)
    ensures checkUserAuth(username, password).Err? ==> r == Err(checkUserAuth(username, password).failure)
    ensures r.Ok? <==> checkUserAuth(username, password).Ok? && generate(checkUserAuth(username, password).value).Ok?
    ensures r.Ok? ==> r.value == generate(checkUserAuth(username, password).value).value
  {
    var user :- checkUserAuth(username, password);
    generate(user)
  }

  /** refresh_token. The new pair is generated first and the presented
      refresh token is recorded as revoked only afterwards: when validation
      or generation fails the store is left as it was. The answer is the
      store after the request together with the response. */
  function Refresh(store: Storage.LocalStorage, validate: string -> Result<Row>, generate: Row -> Result<Token>,
                   form: RefreshToken, expire: int): (r: (Storage.LocalStorage, Result<Token>))
    ensures r.1.Err? ==> r.0 == store
    ensures r.1.Ok? <==> validate(form.refreshToken).Ok? && generate(validate(form.refreshToken).value).Ok?
    ensures r.1.Ok? ==> r.1.value == generate(validate(form.refreshToken).value).value
    ensures r.1.Ok? ==> Storage.Contains(r.0, form.refreshToken)
                        && r.0.entries[form.refreshToken] == expire
                        && forall k :: k != form.refreshToken ==> (Storage.Contains(r.0, k) <==> Storage.Contains(store, k))
  {
    match validate(form.refreshToken)
    case Err(f) => (store, Err(f))
    case Ok(user) =>
      match generate(user)
      case Err(f) => (store, Err(f))
      case Ok(tokens) => (Storage.SetKey(store, form.refreshToken, expire), Ok(tokens))
  }

  /** A refresh token that has been refreshed once stays revoked however
      many more refreshes follow. */
  lemma {:induction false} RevokedStaysRevoked(store: Storage.LocalStorage, validate: string -> Result<Row>,
                                               generate: Row -> Result<Token>, forms: seq<RefreshToken>,
                                               expires: seq<int>, token: string)
    requires |forms| == |expires|
    requires Storage.Contains(store, token)
    ensures Storage.Contains(RefreshAll(store, validate, generate, forms, expires), token)
    decreases |forms|
  {
    if |forms| > 0 {
      var next := Refresh(store, validate, generate, forms[0], expires[0]).0;
      assert Storage.Contains(next, token);
      RevokedStaysRevoked(next, validate, generate, forms[1..], expires[1..], token);
    }
  }

  /** The store after a sequence of refresh requests. */
  function RefreshAll(store: Storage.LocalStorage, validate: string -> Result<Row>, generate: Row -> Result<Token>,
                      forms: seq<RefreshToken>, expires: seq<int>): Storage.LocalStorage
    requires |forms| == |expires|
    decreases |forms|
  {
    if |forms| == 0 then store
    else RefreshAll(Refresh(store, validate, generate, forms[0], expires[0]).0, validate, generate, forms[1..], expires[1..])
  }

  /** logout: nothing on the server changes; the client drops its tokens. */
  function Logout(db: AuthDb, store: Storage.LocalStorage): (r: (AuthDb, Storage.LocalStorage, Message))
    ensures r.0 == db && r.1 == store && r.2 == LoggedOut
  {
    (db, store, LoggedOut)
  }

  // ---------------------------------------------------------------------
  // E-mail verification

  /** verify_email. The record with this token and its user must exist;
      a record whose `expires_at` is strictly before now gives 400
      TOKEN_EXPIRED; otherwise the user becomes active and the record is
      deleted. */
  function VerifyEmail(db: AuthDb, token: string, now: int): (r: Result<(AuthDb, Message)>)
    requires db.Valid()
    ensures FirstMatch(db.verifications, TokenFilter(token)).None? ==> r.Err?
    ensures r.Ok? ==>
              && FirstMatch(db.verifications, TokenFilter(token)).Some?
              && var vid := FirstMatch(db.verifications, TokenFilter(token)).value;
                 var rec := db.verifications.rows[vid];
                 var ref := Column(rec, "user_id");
                 && Column(rec, "expires_at").Int? && !(Column(rec, "expires_at").i < now)
                 && ref.Int? && ref.i >= 0 && ref.i as nat in db.users.rows
                 && r.value.0.users.rows
                    == db.users.rows[ref.i as nat := db.users.rows[ref.i as nat]["is_active" := Bool(true)]]
                 && r.value.0.verifications.rows == db.verifications.rows - {vid}
                 && r.value.0.profiles == db.profiles
                 && r.value.0.Valid()
                 && r.value.1 == EmailVerified
    ensures FirstMatch(db.verifications, TokenFilter(token)).Some? ==>
              var rec := db.verifications.rows[FirstMatch(db.verifications, TokenFilter(token)).value];
              UserByReference(db.users, Column(rec, "user_id")).Ok?
              && Column(rec, "expires_at").Int? && Column(rec, "expires_at").i < now
              ==> FailedWith(r, BadRequest, TokenExpired)
  {
    var verification :- GetSpecific(db.verifications, TokenFilter(token));
    var user :- UserByReference(db.users, Column(verification.fields, "user_id"));
    match Column(verification.fields, "expires_at")
    case Int(expiresAt) =>
      if expiresAt < now then Raise(BadRequest, TokenExpired)
      else
        var users := db.users.(rows := db.users.rows[user.id := user.fields["is_active" := Bool(true)]]);
        var verifications := db.verifications.(rows := db.verifications.rows - {verification.id});
        Ok((AuthDb(users, verifications, db.profiles), EmailVerified))
    case _ => Err(Internal("TypeError: expires_at is not a datetime"))
  }

  /** resend_verification_email. An already active user gives 400
      EMAIL_ALREADY_VERIFIED; an inactive user with a record always
      succeeds: that record gets the new token and a fresh 24-hour expiry in
      place, and no record is added. */
  function ResendVerificationEmail(db: AuthDb, email: string, now: int, newToken: string): (r: Result<(AuthDb, Message)>)
    requires db.Valid()
    ensures FirstMatch(db.users, [("email", Str(email))]).None? ==> r.Err?
    ensures FirstMatch(db.users, [("email", Str(email))]).Some?
            && Truthy(Column(db.users.rows[FirstMatch(db.users, [("email", Str(email))]).value], "is_active"))
            ==> FailedWith(r, BadRequest, EmailAlreadyVerified)
    ensures r.Ok? <==>
              && FirstMatch(db.users, [("email", Str(email))]).Some?
              && var uid := FirstMatch(db.users, [("email", Str(email))]).value;
                 && !Truthy(Column(db.users.rows[uid], "is_active"))
                 && FirstMatch(db.verifications, [("user_id", Int(uid))]).Some?
    ensures r.Ok? ==>
              && FirstMatch(db.users, [("email", Str(email))]).Some?
              && var uid := FirstMatch(db.users, [("email", Str(email))]).value;
                 && FirstMatch(db.verifications, [("user_id", Int(uid))]).Some?
                 && var vid := FirstMatch(db.verifications, [("user_id", Int(uid))]).value;
                    && r.value.0.users == db.users && r.value.0.profiles == db.profiles
                    && r.value.0.verifications.rows.Keys == db.verifications.rows.Keys
                    && r.value.0.verifications.rows[vid]
                       == db.verifications.rows[vid]["token" := Str(newToken)]["expires_at" := Int(now + EmailTokenLifetimeSeconds)]
                    && (forall k :: k in db.verifications.rows && k != vid ==>
                          r.value.0.verifications.rows[k] == db.verifications.rows[k])
                    && r.value.0.Valid()
                    && r.value.1 == EmailSent
  {
    var user :- GetSpecific(db.users, [("email", Str(email))]);
    if Truthy(Column(user.fields, "is_active")) then Raise(BadRequest, EmailAlreadyVerified)
    else
      var verification :- GetSpecific(db.verifications, [("user_id", Int(user.id))]);
      var expiresAt := now + EmailTokenLifetimeSeconds;
      var updated := verification.fields["token" := Str(newToken)]["expires_at" := Int(expiresAt)];
      var verifications := db.verifications.(rows := db.verifications.rows[verification.id := updated]);
      Ok((db.(verifications := verifications), EmailSent))
  }

  // ---------------------------------------------------------------------
  // The invariant the routes keep, and the verification lifecycle.

  /** The record's `user_id` names an existing user. */
  predicate RefersToUser(users: Table, rec: Record)
  {
    var ref := Column(rec, "user_id");
    ref.Int? && ref.i >= 0 && ref.i as nat in users.rows
  }

  /** A pending verification: it belongs to an existing, still inactive
      user, and carries a token and an expiry. */
  predicate PendingRecord(users: Table, rec: Record)
  {
    && RefersToUser(users, rec)
    && !Truthy(Column(users.rows[Column(rec, "user_id").i as nat], "is_active"))
    && Column(rec, "expires_at").Int?
    && Column(rec, "token").Str?
  }

  /** No two rows share a value in column `f`. */
  predicate UniqueColumn(t: Table, f: string)
  {
    forall a, b :: a in t.rows && b in t.rows && a != b ==> Column(t.rows[a], f) != Column(t.rows[b], f)
  }

  /** What the auth routes maintain: usernames and emails are unique, each
      user has at most one pending verification, tokens are unique, and
      every verification is pending for an inactive user. */
  predicate Consistent(db: AuthDb)
  {
    && db.Valid()
    && UniqueColumn(db.users, "username") && UniqueColumn(db.users, "email")
    && UniqueColumn(db.verifications, "token") && UniqueColumn(db.verifications, "user_id")
    && forall v :: v in db.verifications.rows ==> PendingRecord(db.users, db.verifications.rows[v])
  }

  /** No verification record carries this token yet (the e-mail token
      generator is taken to produce fresh tokens). */
  predicate FreshToken(db: AuthDb, token: string)
  {
    forall v :: v in db.verifications.rows ==> Column(db.verifications.rows[v], "token") != Str(token)
  }

  /** A row added under a new key keeps a column unique when its value
      there is new. */
  lemma AddRowKeepsUnique(t: Table, t': Table, id: nat, rec: Record, f: string)
    requires UniqueColumn(t, f)
    requires id !in t.rows && t'.rows == t.rows[id := rec]
    requires forall k :: k in t.rows ==> Column(t.rows[k], f) != Column(rec, f)
    ensures UniqueColumn(t', f)
  {
  }

  /** Adding a user keeps every pending record pending. */
  lemma AddUserKeepsPending(users: Table, users': Table, uid: nat, user: Record, rec: Record)
    requires PendingRecord(users, rec)
    requires uid !in users.rows && users'.rows == users.rows[uid := user]
    ensures PendingRecord(users', rec)
    ensures Column(rec, "user_id") != Int(uid)
  {
  }

  /** Adding one inactive user with one pending record for it keeps the
      invariant, when the user's name and email and the record's token are
      new. */
  lemma AddPendingUserKeepsConsistent(db: AuthDb, db': AuthDb, uid: nat, user: Record, vid: nat, rec: Record)
    requires Consistent(db) && db'.Valid()
    requires uid !in db.users.rows && db'.users.rows == db.users.rows[uid := user]
    requires vid !in db.verifications.rows && db'.verifications.rows == db.verifications.rows[vid := rec]
    requires forall k :: k in db.users.rows ==>
               Column(db.users.rows[k], "username") != Column(user, "username")
               && Column(db.users.rows[k], "email") != Column(user, "email")
    requires !Truthy(Column(user, "is_active"))
    requires Column(rec, "user_id") == Int(uid) && Column(rec, "expires_at").Int? && Column(rec, "token").Str?
    requires forall v :: v in db.verifications.rows ==> Column(db.verifications.rows[v], "token") != Column(rec, "token")
    ensures Consistent(db')
  {
    AddRowKeepsUnique(db.users, db'.users, uid, user, "username");
    AddRowKeepsUnique(db.users, db'.users, uid, user, "email");
    AddRowKeepsUnique(db.verifications, db'.verifications, vid, rec, "token");
    forall v | v in db.verifications.rows
      ensures PendingRecord(db'.users, db.verifications.rows[v])
      ensures Column(db.verifications.rows[v], "user_id") != Column(rec, "user_id")
    {
      AddUserKeepsPending(db.users, db'.users, uid, user, db.verifications.rows[v]);
    }
    AddRowKeepsUnique(db.verifications, db'.verifications, vid, rec, "user_id");
    assert PendingRecord(db'.users, rec);
  }

  /** The pending record a successful signup adds. */
  lemma SignupAddsPending(db: AuthDb, openRegistration: bool, h: Hasher, form: SignupForm, salt: nat,
                          emailToken: string, now: int)
      returns (vid: nat)
    requires db.Valid()
    requires Signup(db, openRegistration, h, form, salt, emailToken, now).Ok?
    ensures var (db', user) := Signup(db, openRegistration, h, form, salt, emailToken, now).value;
            && vid !in db.verifications.rows
            && db'.verifications.rows == db.verifications.rows[vid := PendingVerification(emailToken, user.id, now)]
  {
    var (db', user) := SignupWrites(db, h, form, salt, emailToken, now);
    vid :| vid !in db.verifications.rows
           && db'.verifications.rows == db.verifications.rows[vid := PendingVerification(emailToken, user.id, now)];
  }

  /** Signup keeps the invariant when the e-mail token is fresh. */
  lemma SignupKeepsConsistent(db: AuthDb, openRegistration: bool, h: Hasher, form: SignupForm, salt: nat,
                              emailToken: string, now: int)
    requires Consistent(db) && FreshToken(db, emailToken)
    requires Signup(db, openRegistration, h, form, salt, emailToken, now).Ok?
    ensures Consistent(Signup(db, openRegistration, h, form, salt, emailToken, now).value.0)
  {
    var (db', user) := SignupWrites(db, h, form, salt, emailToken, now);
    var vid := SignupAddsPending(db, openRegistration, h, form, salt, emailToken, now);
    var rec := PendingVerification(emailToken, user.id, now);
    assert Column(rec, "user_id") == Int(user.id) && Column(rec, "token") == Str(emailToken);
    AddPendingUserKeepsConsistent(db, db', user.id, user.fields, vid, rec);
  }

  /** Verifying keeps the invariant. */
  lemma VerifyKeepsConsistent(db: AuthDb, token: string, now: int)
    requires Consistent(db)
    requires VerifyEmail(db, token, now).Ok?
    ensures Consistent(VerifyEmail(db, token, now).value.0)
  {
    var db' := VerifyEmail(db, token, now).value.0;
    var vid := FirstMatch(db.verifications, TokenFilter(token)).value;
    var uid := Column(db.verifications.rows[vid], "user_id").i as nat;
    forall v | v in db'.verifications.rows
      ensures PendingRecord(db'.users, db'.verifications.rows[v])
    {
      assert v != vid && PendingRecord(db.users, db.verifications.rows[v]);
      assert Column(db.verifications.rows[v], "user_id") != Column(db.verifications.rows[vid], "user_id");
    }
  }

  /** Giving one record a new, unused token and a new expiry keeps the
      invariant. */
  lemma ReissueKeepsConsistent(db: AuthDb, db': AuthDb, vid: nat, token: string, expiresAt: int)
    requires Consistent(db) && FreshToken(db, token) && db'.Valid()
    requires vid in db.verifications.rows
    requires db'.users == db.users
    requires db'.verifications.rows
             == db.verifications.rows[vid := db.verifications.rows[vid]["token" := Str(token)]["expires_at" := Int(expiresAt)]]
    ensures Consistent(db')
  {
    forall v | v in db'.verifications.rows
      ensures PendingRecord(db'.users, db'.verifications.rows[v])
    {
      assert PendingRecord(db.users, db.verifications.rows[v]);
    }
  }

  /** Re-sending keeps the invariant when the new token is fresh. */
  lemma ResendKeepsConsistent(db: AuthDb, email: string, now: int, newToken: string)
    requires Consistent(db) && FreshToken(db, newToken)
    requires ResendVerificationEmail(db, email, now, newToken).Ok?
    ensures Consistent(ResendVerificationEmail(db, email, now, newToken).value.0)
  {
    var db' := ResendVerificationEmail(db, email, now, newToken).value.0;
    var uid := FirstMatch(db.users, [("email", Str(email))]).value;
    var vid := FirstMatch(db.verifications, [("user_id", Int(uid))]).value;
    var expiresAt := now + EmailTokenLifetimeSeconds;
    assert db'.verifications.rows
           == db.verifications.rows[vid := db.verifications.rows[vid]["token" := Str(newToken)]["expires_at" := Int(expiresAt)]];
    ReissueKeepsConsistent(db, db', vid, newToken, expiresAt);
  }

  /** In a consistent database a pending record's token finds that very
      record: verifying with it succeeds exactly until the record's expiry
      and gives 400 TOKEN_EXPIRED after it. */
  lemma VerifyPending(db: AuthDb, vid: nat, now: int)
    requires Consistent(db) && vid in db.verifications.rows
    ensures var rec := db.verifications.rows[vid];
            var r := VerifyEmail(db, Column(rec, "token").s, now);
            && (r.Ok? <==> now <= Column(rec, "expires_at").i)
            && (r.Ok? ==> Column(r.value.0.users.rows[Column(rec, "user_id").i as nat], "is_active") == Bool(true)
                          && vid !in r.value.0.verifications.rows)
            && (r.Err? ==> FailedWith(r, BadRequest, TokenExpired))
  {
    var rec := db.verifications.rows[vid];
    var token := Column(rec, "token").s;
    assert PendingRecord(db.users, rec);
    SingleFilter("token", Str(token));
    assert Satisfies(rec, TokenFilter(token));
    var found := FirstMatch(db.verifications, TokenFilter(token)).value;
    assert found == vid;
  }

  /** The e-mail token of a fresh signup activates the new user when
      presented within 24 hours, and is refused as expired afterwards. */
  lemma {:induction false} SignupThenVerify(db: AuthDb, h: Hasher, form: SignupForm, salt: nat,
                                            emailToken: string, signedUp: int, now: int)
    requires Consistent(db) && FreshToken(db, emailToken)
    requires Signup(db, true, h, form, salt, emailToken, signedUp).Ok?
    ensures var (db', user) := Signup(db, true, h, form, salt, emailToken, signedUp).value;
            var r := VerifyEmail(db', emailToken, now);
            && (r.Ok? <==> now <= signedUp + EmailTokenLifetimeSeconds)
            && (r.Ok? ==> Column(r.value.0.users.rows[user.id], "is_active") == Bool(true))
            && (r.Err? ==> FailedWith(r, BadRequest, TokenExpired))
  {
    var w := SignupWrites(db, h, form, salt, emailToken, signedUp);
    assert Signup(db, true, h, form, salt, emailToken, signedUp).value == w;
    SignupKeepsConsistent(db, true, h, form, salt, emailToken, signedUp);
    var vid := SignupAddsPending(db, true, h, form, salt, emailToken, signedUp);
    VerifyFreshPending(w.0, vid, emailToken, w.1.id, signedUp, now);
  }

  /** `VerifyPending` for the record signup writes. */
  lemma VerifyFreshPending(db: AuthDb, vid: nat, token: string, uid: nat, issued: int, now: int)
    requires Consistent(db) && vid in db.verifications.rows
    requires db.verifications.rows[vid] == PendingVerification(token, uid, issued)
    ensures var r := VerifyEmail(db, token, now);
            && (r.Ok? <==> now <= issued + EmailTokenLifetimeSeconds)
            && (r.Ok? ==> Column(r.value.0.users.rows[uid], "is_active") == Bool(true))
            && (r.Err? ==> FailedWith(r, BadRequest, TokenExpired))
  {
    var rec := PendingVerification(token, uid, issued);
    assert Column(rec, "token") == Str(token) && Column(rec, "user_id") == Int(uid)
           && Column(rec, "expires_at") == Int(issued + EmailTokenLifetimeSeconds);
    VerifyPending(db, vid, now);
  }

  /** A user whose e-mail is verified can no longer ask for a new
      verification e-mail. */
  lemma {:induction false} VerifiedCannotResend(db: AuthDb, token: string, now: int, later: int, newToken: string)
    requires Consistent(db)
    requires VerifyEmail(db, token, now).Ok?
    ensures var db' := VerifyEmail(db, token, now).value.0;
            var uid := Column(db.verifications.rows[FirstMatch(db.verifications, TokenFilter(token)).value], "user_id").i as nat;
            var email := Column(db'.users.rows[uid], "email");
            email.Str? ==> FailedWith(ResendVerificationEmail(db', email.s, later, newToken), BadRequest, EmailAlreadyVerified)
  {
    var db' := VerifyEmail(db, token, now).value.0;
    var uid := Column(db.verifications.rows[FirstMatch(db.verifications, TokenFilter(token)).value], "user_id").i as nat;
    var email := Column(db'.users.rows[uid], "email");
    if email.Str? {
      VerifyKeepsConsistent(db, token, now);
      SingleFilter("email", email);
      assert Satisfies(db'.users.rows[uid], [("email", email)]);
      assert FirstMatch(db'.users, [("email", Str(email.s))]).value == uid;
    }
  }

  /** After a re-send the new token works for 24 hours from the re-send. */
  lemma {:induction false} ResendThenVerify(db: AuthDb, email: string, sent: int, newToken: string, now: int)
    requires Consistent(db) && FreshToken(db, newToken)
    requires ResendVerificationEmail(db, email, sent, newToken).Ok?
    ensures var r := VerifyEmail(ResendVerificationEmail(db, email, sent, newToken).value.0, newToken, now);
            && (r.Ok? <==> now <= sent + EmailTokenLifetimeSeconds)
            && (r.Err? ==> FailedWith(r, BadRequest, TokenExpired))
  {
    var db' := ResendVerificationEmail(db, email, sent, newToken).value.0;
    var uid := FirstMatch(db.users, [("email", Str(email))]).value;
    var vid := FirstMatch(db.verifications, [("user_id", Int(uid))]).value;
    ResendKeepsConsistent(db, email, sent, newToken);
    VerifyPending(db', vid, now);
  }
}

=== FILE: auth_schema.dfy ===
/** The request/response shapes of app/auth/schema.py and the username
    normalisation `TokenData` applies: surrounding whitespace stripped (the
    Unicode White_Space characters pydantic's `strip_whitespace` trims),
    lower-cased, then 4..20 characters. */
module AuthSchema {
  import opened Outcome

  /** `Token`: every field is required. */
  datatype Token = Token(accessToken: string, refreshToken: string, tokenType: string)

  /** `RefreshToken`: the refresh token alone. */
  datatype RefreshToken = RefreshToken(refreshToken: string)

  /** `TokenData`: the username may be absent. */
  datatype TokenData = TokenData(username: Option<string>)

  const MinUsernameLength: int := 4
  const MaxUsernameLength: int := 20

  /** The characters with the Unicode White_Space property, which
      pydantic's `strip_whitespace` trims. Unlike Python's `str.isspace()`
      this leaves out the separators U+001C..U+001F. */
  predicate IsSpace(c: char)
  {
    || ('\U{9}' <= c <= '\U{D}')       // \t \n \v \f \r
    || c == ' '
    || c == '\U{85}' || c == '\U{A0}' || c == '\U{1680}'
    || ('\U{2000}' <= c <= '\U{200A}')
    || c == '\U{2028}' || c == '\U{2029}' || c == '\U{202F}' || c == '\U{205F}' || c == '\U{3000}'
  }

  predicate IsUpper(c: char)
  {
    'A' <= c <= 'Z'
  }

  function LowerChar(c: char): (d: char)
    ensures !IsUpper(d)
    ensures !IsUpper(c) ==> d == c
    ensures IsSpace(d) <==> IsSpace(c)
  {
    if IsUpper(c) then (c as int + 32) as char else c
  }

  /** Leading whitespace removed. */
  function StripStart(s: string): (r: string)
    ensures |r| <= |s| && r == s[|s| - |r|..]
    ensures forall i :: 0 <= i < |s| - |r| ==> IsSpace(s[i])
    ensures |r| > 0 ==> !IsSpace(r[0])
  {
    if |s| > 0 && IsSpace(s[0]) then StripStart(s[1..]) else s
  }

  /** Trailing whitespace removed. */
  function StripEnd(s: string): (r: string)
    ensures |r| <= |s| && r == s[..|r|]
    ensures forall i :: |r| <= i < |s| ==> IsSpace(s[i])
    ensures |r| > 0 ==> !IsSpace(r[|r| - 1])
  {
    if |s| > 0 && IsSpace(s[|s| - 1]) then StripEnd(s[..|s| - 1]) else s
  }

  function Strip(s: string): string
  {
    StripEnd(StripStart(s))
  }

  function Lower(s: string): (r: string)
    ensures |r| == |s|
    ensures forall i :: 0 <= i < |s| ==> r[i] == LowerChar(s[i])
  {
    seq(|s|, i requires 0 <= i < |s| => LowerChar(s[i]))
  }

  /** A username `TokenData` leaves exactly as it is. */
  predicate IsNormalUsername(s: string)
  {
    && MinUsernameLength <= |s| <= MaxUsernameLength
    && !IsSpace(s[0]) && !IsSpace(s[|s| - 1])
    && forall i :: 0 <= i < |s| ==> !IsUpper(s[i])
  }

  /** `TokenData(username=...)`: `None` when pydantic rejects the value. */
  function ValidateTokenData(username: Option<string>): (r: Option<TokenData>)
    ensures username.None? ==> r == Some(TokenData(None))
    ensures username.Some? ==>
              (r.Some? <==> MinUsernameLength <= |Strip(username.value)| <= MaxUsernameLength)
    ensures r.Some? && username.Some? ==> r.value.username.Some? && IsNormalUsername(r.value.username.value)
  {
    match username
    case None => Some(TokenData(None))
    case Some(s) =>
      var stripped := Strip(s);
      if MinUsernameLength <= |stripped| <= MaxUsernameLength then Some(TokenData(Some(Lower(stripped))))
      else None
  }

  /** Stripping text with no whitespace at either end changes nothing. */
  lemma StripKeepsTrimmed(s: string)
    requires |s| > 0 && !IsSpace(s[0]) && !IsSpace(s[|s| - 1])
    ensures Strip(s) == s
  {
  }

  /** What `TokenData` makes of a username it accepts: the input with
      whitespace cut from both ends, every letter lower-cased, nothing else
      changed. */
  lemma TokenDataNormalises(s: string)
    requires ValidateTokenData(Some(s)).Some?
    ensures exists a, b :: 0 <= a <= b <= |s|
                           && ValidateTokenData(Some(s)).value.username.value == Lower(s[a..b])
                           && (forall i :: 0 <= i < a ==> IsSpace(s[i]))
                           && (forall i :: b <= i < |s| ==> IsSpace(s[i]))
  {
    var a, b := StripBounds(s);
    assert ValidateTokenData(Some(s)).value.username.value == Lower(s[a..b]);
  }

  /** `Strip(s)` is the slice `s[a..b]`, with only whitespace outside it. */
  lemma StripBounds(s: string) returns (a: nat, b: nat)
    ensures a <= b <= |s| && Strip(s) == s[a..b]
    ensures forall i :: 0 <= i < a ==> IsSpace(s[i])
    ensures forall i :: b <= i < |s| ==> IsSpace(s[i])
  {
    var t := StripStart(s);
    a := |s| - |t|;
    b := a + |StripEnd(t)|;
    assert t == s[a..];
    assert StripEnd(t) == t[..b - a] == s[a..b];
    forall i | b <= i < |s| ensures IsSpace(s[i]) { assert s[i] == t[i - a]; }
  }

  /** A username passes through `TokenData` unchanged exactly when it is
      already in normal form. */
  lemma NormalIffUnchanged(s: string)
    ensures ValidateTokenData(Some(s)) == Some(TokenData(Some(s))) <==> IsNormalUsername(s)
  {
    if IsNormalUsername(s) {
      StripKeepsTrimmed(s);
      assert Lower(s) == s;
    }
  }

  /** Validating a validated username again changes nothing. */
  lemma ValidateIdempotent(s: string)
    requires ValidateTokenData(Some(s)).Some?
    ensures var n := ValidateTokenData(Some(s)).value.username.value;
            ValidateTokenData(Some(n)) == Some(TokenData(Some(n)))
  {
    var n := ValidateTokenData(Some(s)).value.username.value;
    NormalIffUnchanged(n);
  }
}

=== FILE: auth_v1.dfy ===
/** app/api/endpoints/v1/auth.py: signup, the access/refresh token pair,
    login and refresh. `create_jwt_token` is not part of this model; it is
    taken to build the claims of `create_access_token` and to add a `scope`
    claim when it is given one. `create_new_user` is the one of
    app/auth/crud.py, over the model of app/modules/users/models.py, whose
    `is_active` defaults to False. */
module AuthV1 {
  import opened Outcome
  import opened Crypto
  import opened UserCrud
  import opened Security
  import opened AuthSchema

  const AccessLifetimeSeconds: int := AccessTokenExpireMinutes * 60
  const RefreshLifetimeSeconds: int := RefreshTokenExpireMinutes * 60
  const RefreshScope: string := "refresh_token"
  const BearerType: string := "bearer"

  /** The login form (OAuth2PasswordRequestForm). */
  datatype LoginForm = LoginForm(username: string, password: string)

  /** create_user: closed registration, then a taken username, then a taken
      email; only then is the user created. */
  function CreateUser(rows: Users, openRegistration: bool, h: Hasher, input: UserCreate, id: int, salt: nat)
    : (r: Result<(Users, User)>)
    ensures !openRegistration ==> FailedWith(r, Forbidden, ClosedRegistration)
    ensures openRegistration && (exists i :: 0 <= i < |rows| && rows[i].username == input.username)
            ==> FailedWith(r, BadRequest, UsernameTaken)
    ensures openRegistration && (forall i :: 0 <= i < |rows| ==> rows[i].username != input.username)
            && (exists i :: 0 <= i < |rows| && rows[i].email == input.email)
            ==> FailedWith(r, BadRequest, EmailTaken)
    ensures r.Ok? <==> openRegistration
                       && (forall i :: 0 <= i < |rows| ==> rows[i].username != input.username && rows[i].email != input.email)
    ensures r.Ok? ==> r.value == CreateNewUser(rows, h, input, id, salt, ModuleActiveDefault)
  {
    if !openRegistration then Raise(Forbidden, ClosedRegistration)
    else
      var usernameTaken :- CheckUsernameIsTaken(rows, input.username);
      var emailTaken :- CheckEmailIsTaken(rows, input.email);
      Ok(CreateNewUser(rows, h, input, id, salt, ModuleActiveDefault))
  }

  /** The claims of `create_jwt_token(data, expires_delta, scope)`. */
  function JwtClaims(data: map<string, string>, delta: Option<int>, scope: Option<string>, now: int): Claims
  {
    var c := AccessTokenClaims(data, delta, now);
    if scope.Some? then c.(fields := c.fields["scope" := scope.value]) else c
  }

  /** The claims of the pair `_generate_access_refresh_token` signs: both
      name the user in `sub`; only the refresh token carries a scope. */
  function TokenPairClaims(username: string, now: int): (r: (Claims, Claims))
    ensures r.0.fields.Keys == {"sub"} && r.0.fields["sub"] == username
    ensures r.0.exp == now + AccessLifetimeSeconds
    ensures r.1.fields.Keys == {"sub", "scope"} && r.1.fields["sub"] == username
    ensures r.1.fields["scope"] == RefreshScope
    ensures r.1.exp == now + RefreshLifetimeSeconds
  {
    var data := map["sub" := username];
    (JwtClaims(data, Some(AccessLifetimeSeconds), None, now),
     JwtClaims(data, Some(RefreshLifetimeSeconds), Some(RefreshScope), now))
  }

  /** _generate_access_refresh_token: (access token, refresh token). */
  function GenerateAccessRefreshToken(codec: Codec, user: User, now: int): (string, string)
  {
    var claims := TokenPairClaims(user.username, now);
    (codec.encode(claims.0), codec.encode(claims.1))
  }

  function TokenResponse(codec: Codec, user: User, now: int): Token
  {
    var pair := GenerateAccessRefreshToken(codec, user, now);
    Token(pair.0, pair.1, BearerType)
  }

  /** login_for_access_token: a failed authentication gives 401 with
      `WWW-Authenticate: Bearer`; otherwise the pair for the authenticated
      user, typed "bearer". */
  function LoginForAccessToken(rows: Users, h: Hasher, codec: Codec, form: LoginForm, now: int): (r: Result<Token>)
    ensures r.Err? <==> AuthenticateUser(rows, h, form.username, form.password).None?
    ensures r.Err? ==> r.failure == Http(Unauthorized, IncorrectUserPassword, true)
    ensures r.Ok? ==> var u := AuthenticateUser(rows, h, form.username, form.password).value;
                      r.value.tokenType == BearerType
                      && r.value.accessToken == codec.encode(TokenPairClaims(u.username, now).0)
                      && r.value.refreshToken == codec.encode(TokenPairClaims(u.username, now).1)
  {
    match AuthenticateUser(rows, h, form.username, form.password)
    case None => Err(Http(Unauthorized, IncorrectUserPassword, true))
    case Some(u) => Ok(TokenResponse(codec, u, now))
  }

  /** refresh_token. `validate_refresh_token` is not part of this model and
      is the parameter `validate`; the new pair is for exactly the user it
      returns, and its failure is passed on untouched. */
  function RefreshAccessToken(validate: string -> Result<User>, codec: Codec, form: RefreshToken, now: int)
    : (r: Result<Token>)
    ensures validate(form.refreshToken).Err? ==> r == Err(validate(form.refreshToken).failure)
    ensures r.Ok? <==> validate(form.refreshToken).Ok?
    ensures r.Ok? ==> var u := validate(form.refreshToken).value;
                      r.value.tokenType == BearerType
                      && r.value.accessToken == codec.encode(TokenPairClaims(u.username, now).0)
                      && r.value.refreshToken == codec.encode(TokenPairClaims(u.username, now).1)
  {
    var user :- validate(form.refreshToken);
    Ok(TokenResponse(codec, user, now))
  }

  // ---------------------------------------------------------------------
  // How the pieces fit together.

  /** A user who has just signed up can log in with the same password, and
      the tokens are issued for that very user. The signup's rows are taken
      to be the rows login reads, although the two helpers name different
      tables (`user` and `users`). */
  lemma SignupThenLogin(rows: Users, h: Hasher, codec: Codec, input: UserCreate, id: int, salt: nat, now: int)
    requires HasherSound(h)
    requires CreateUser(rows, true, h, input, id, salt).Ok?
    ensures var created := CreateUser(rows, true, h, input, id, salt).value;
            AuthenticateUser(created.0, h, input.username, input.password) == Some(created.1)
            && LoginForAccessToken(created.0, h, codec, LoginForm(input.username, input.password), now)
               == Ok(TokenResponse(codec, created.1, now))
  {
    var created := CreateUser(rows, true, h, input, id, salt).value;
    var rows' := created.0;
    assert rows'[|rows|] == created.1;
    assert forall j :: 0 <= j < |rows| ==> rows'[j].username != input.username;
    assert h.verify(input.password, created.1.password);
  }

  /** A wrong password and an unknown username are indistinguishable at
      login: both give the same 401. */
  lemma LoginFailuresAlike(rows: Users, h: Hasher, codec: Codec, form: LoginForm, now: int)
    requires exists i :: 0 <= i < |rows| && rows[i].username == form.username
    requires forall i :: 0 <= i < |rows| && rows[i].username == form.username ==> !h.verify(form.password, rows[i].password)
    ensures LoginForAccessToken(rows, h, codec, form, now)
            == LoginForAccessToken([], h, codec, form, now)
            == Err(Http(Unauthorized, IncorrectUserPassword, true))
  {
  }

  /** The access token from a login is accepted by `check_jwt` up to and
      including its expiry second, for the user it was issued to (when the
      username is in the normal form `TokenData` produces), and refused with
      401 from the next second on. */
  lemma {:induction false} AccessTokenLifetime(rows: Users, h: Hasher, codec: Codec, form: LoginForm, issued: int, now: int)
    requires CodecSound(codec)
    requires LoginForAccessToken(rows, h, codec, form, issued).Ok?
    requires IsNormalUsername(form.username)
    ensures var token := LoginForAccessToken(rows, h, codec, form, issued).value.accessToken;
            var u := AuthenticateUser(rows, h, form.username, form.password).value;
            CheckJwt(codec, rows, token, now)
            == if now <= issued + AccessLifetimeSeconds then Ok(u) else Err(CredentialsException)
  {
    var token := LoginForAccessToken(rows, h, codec, form, issued).value.accessToken;
    var u := AuthenticateUser(rows, h, form.username, form.password).value;
    var claims := TokenPairClaims(u.username, issued).0;
    assert codec.decode(codec.encode(claims), now)
           == if now <= claims.exp then Some(claims) else None;
    if now <= issued + AccessLifetimeSeconds {
      assert Subject(codec, token, now) == Some(form.username);
      CheckJwtNormalSubject(codec, rows, token, now);
      var i :| 0 <= i < |rows| && rows[i] == u && u.username == form.username
               && forall j :: 0 <= j < i ==> rows[j].username != form.username;
      FirstIsEarliest(rows, ByUsername(form.username), i);
    } else {
      assert Subject(codec, token, now).None?;
    }
  }

  /** The refresh token decodes to a token naming the same user, marked
      with the refresh scope, and lives 10080 minutes. */
  lemma RefreshTokenClaims(rows: Users, h: Hasher, codec: Codec, form: LoginForm, issued: int, now: int)
    requires CodecSound(codec)
    requires LoginForAccessToken(rows, h, codec, form, issued).Ok?
    requires now <= issued + RefreshLifetimeSeconds
    ensures var token := LoginForAccessToken(rows, h, codec, form, issued).value.refreshToken;
            var decoded := codec.decode(token, now);
            decoded.Some? && decoded.value.fields["sub"] == form.username
            && decoded.value.fields["scope"] == RefreshScope
            && decoded.value.exp == issued + RefreshLifetimeSeconds
  {
    var u := AuthenticateUser(rows, h, form.username, form.password).value;
    var claims := TokenPairClaims(u.username, issued).1;
    assert codec.decode(codec.encode(claims), now) == Some(claims);
  }
}

=== FILE: core_crud.dfy ===
/** The role-based access-control store of app/modules/core and its two
    queries (app/modules/core/crud.py). Users, roles and permissions are
    tables; the pivot tables `cre_user_role` and `cre_role_permission` are
    kept as each owner's list of linked ids, in link order, which is the
    order the relationship lists `user.roles` and `role.permissions` are
    taken to load in. */
module CoreCrud {
  import opened Outcome
  import opened QueryFactory

  datatype CoreDb = CoreDb(users: Table, roles: Table, permissions: Table,
                           userRoles: map<nat, seq<nat>>, rolePermissions: map<nat, seq<nat>>)
  {
    predicate Valid() {
      users.Valid() && roles.Valid() && permissions.Valid()
    }
  }

  /** The ids linked to `owner` (none when it has no pivot rows). */
  function Linked(links: map<nat, seq<nat>>, owner: nat): seq<nat>
  {
    if owner in links then links[owner] else []
  }

  /** Every pivot row joins two existing rows: what the `ondelete="CASCADE"`
      foreign keys of the pivot tables maintain. */
  predicate LinksExist(db: CoreDb)
  {
    && (forall u :: u in db.userRoles ==> u in db.users.rows)
    && (forall u, i :: u in db.userRoles && 0 <= i < |db.userRoles[u]| ==> db.userRoles[u][i] in db.roles.rows)
    && (forall r :: r in db.rolePermissions ==> r in db.roles.rows)
    && (forall r, i :: r in db.rolePermissions && 0 <= i < |db.rolePermissions[r]| ==> db.rolePermissions[r][i] in db.permissions.rows)
  }

  /** No id occurs twice. */
  predicate Distinct(s: seq<nat>)
  {
    forall i, j :: 0 <= i < j < |s| ==> s[i] != s[j]
  }

  /** Each pivot table holds a pair at most once: the relationship lists
      hold an object at most once, and the ORM inserts a pivot row only for
      an object newly added to a list. */
  predicate LinksDistinct(db: CoreDb)
  {
    && (forall u :: u in db.userRoles ==> Distinct(db.userRoles[u]))
    && (forall o :: o in db.rolePermissions ==> Distinct(db.rolePermissions[o]))
  }

  /** The rows of those ids that exist, in the order given. */
  function RowsOf(t: Table, ids: seq<nat>): (r: seq<Row>)
    ensures |r| <= |ids|
    ensures (forall i :: 0 <= i < |ids| ==> ids[i] in t.rows) ==> |r| == |ids|
    ensures forall row :: row in r <==> row.id in ids && row.id in t.rows && row.fields == t.rows[row.id]
  {
    if |ids| == 0 then []
    else
      var rest := RowsOf(t, ids[1..]);
      assert forall x :: x in ids <==> x == ids[0] || x in ids[1..];
      assert forall i :: 1 <= i < |ids| ==> ids[i] == ids[1..][i - 1];
      if ids[0] in t.rows then [Row(ids[0], t.rows[ids[0]])] + rest else rest
  }

  /** `role.permissions`. */
  function RolePermissionRows(db: CoreDb, roleId: nat): seq<Row>
  {
    RowsOf(db.permissions, Linked(db.rolePermissions, roleId))
  }

  /** The permissions of the given roles, role after role, each role's in
      its own order, duplicates kept. */
  function PermissionsVia(db: CoreDb, roleIds: seq<nat>): seq<Row>
  {
    if |roleIds| == 0 then [] else RolePermissionRows(db, roleIds[0]) + PermissionsVia(db, roleIds[1..])
  }

  /** UserRoleBase. */
  datatype UserRoles = UserRoles(id: nat, username: Value, roles: seq<Row>)

  /** UserPermissionBase. */
  datatype UserPermissions = UserPermissions(id: nat, username: Value, permissions: seq<Row>)

  /** get_user_roles: the user is selected joined with its pivot rows, so a
      user without any role is not found either: 404 USER_NOT_FOUND for an
      unknown user and for a user with no role alike. */
  function GetUserRoles(db: CoreDb, userId: int): (r: Result<UserRoles>)
    ensures r.Ok? <==> userId >= 0 && userId in db.users.rows && |Linked(db.userRoles, userId)| > 0
    ensures r.Err? ==> FailedWith(r, NotFound, UserNotFound)
    ensures r.Ok? ==> r.value.id == userId && r.value.username == Column(db.users.rows[userId], "username")
    ensures r.Ok? ==> forall row :: row in r.value.roles <==>
                        row.id in Linked(db.userRoles, userId) && row.id in db.roles.rows && row.fields == db.roles.rows[row.id]
  {
    if userId < 0 || userId !in db.users.rows || |Linked(db.userRoles, userId)| == 0 then Raise(NotFound, UserNotFound)
    else
      var uid := userId as nat;
      Ok(UserRoles(uid, Column(db.users.rows[uid], "username"), RowsOf(db.roles, Linked(db.userRoles, uid))))
  }

  /** get_user_permission: 404 USER_NOT_FOUND for an unknown user; a user
      without roles has no permissions. */
  function GetUserPermission(db: CoreDb, userId: int): (r: Result<UserPermissions>)
    ensures r.Ok? <==> userId >= 0 && userId in db.users.rows
    ensures r.Err? ==> FailedWith(r, NotFound, UserNotFound)
    ensures r.Ok? ==> r.value.id == userId && r.value.username == Column(db.users.rows[userId], "username")
    ensures r.Ok? && |Linked(db.userRoles, userId)| == 0 ==> r.value.permissions == []
  {
    if userId < 0 || userId !in db.users.rows then Raise(NotFound, UserNotFound)
    else
      var uid := userId as nat;
      var roles := RowsOf(db.roles, Linked(db.userRoles, uid));
      Ok(UserPermissions(uid, Column(db.users.rows[uid], "username"), PermissionsVia(db, RowIds(roles))))
  }

  /** The ids of a list of rows. */
  function RowIds(rows: seq<Row>): (r: seq<nat>)
    ensures |r| == |rows| && forall i :: 0 <= i < |rows| ==> r[i] == rows[i].id
  {
    seq(|rows|, i requires 0 <= i < |rows| => rows[i].id)
  }

  /** The permissions of a concatenation of role lists are the
      concatenation of their permissions. */
  lemma {:induction false} PermissionsViaAppend(db: CoreDb, a: seq<nat>, b: seq<nat>)
    ensures PermissionsVia(db, a + b) == PermissionsVia(db, a) + PermissionsVia(db, b)
    decreases |a|
  {
    if |a| > 0 {
      assert (a + b)[0] == a[0] && (a + b)[1..] == a[1..] + b;
      PermissionsViaAppend(db, a[1..], b);
    } else {
      assert a + b == b;
    }
  }

  /** A permission is effective exactly when one of the roles grants it. */
  lemma {:induction false} PermissionsViaMembership(db: CoreDb, roleIds: seq<nat>, p: Row)
    ensures p in PermissionsVia(db, roleIds) <==> exists i :: 0 <= i < |roleIds| && p in RolePermissionRows(db, roleIds[i])
    decreases |roleIds|
  {
    if |roleIds| > 0 {
      PermissionsViaMembership(db, roleIds[1..], p);
      if exists i :: 0 <= i < |roleIds[1..]| && p in RolePermissionRows(db, roleIds[1..][i]) {
        var i :| 0 <= i < |roleIds[1..]| && p in RolePermissionRows(db, roleIds[1..][i]);
        assert roleIds[1..][i] == roleIds[i + 1];
      }
      if exists i :: 0 <= i < |roleIds| && p in RolePermissionRows(db, roleIds[i]) {
        var i :| 0 <= i < |roleIds| && p in RolePermissionRows(db, roleIds[i]);
        if i > 0 { assert roleIds[i] == roleIds[1..][i - 1]; }
      }
    }
  }

  /** The number of permissions is the sum over the roles: nothing is
      merged. */
  lemma {:induction false} PermissionsViaCount(db: CoreDb, roleIds: seq<nat>, p: Row)
    ensures multiset(PermissionsVia(db, roleIds))[p] == CountGrants(db, roleIds, p)
    decreases |roleIds|
  {
    if |roleIds| > 0 {
      PermissionsViaCount(db, roleIds[1..], p);
    }
  }

  /** How many times the roles' permission lists name `p`, all together. */
  function CountGrants(db: CoreDb, roleIds: seq<nat>, p: Row): nat
  {
    if |roleIds| == 0 then 0
    else multiset(RolePermissionRows(db, roleIds[0]))[p] + CountGrants(db, roleIds[1..], p)
  }

  /** Two held roles granting the same permission make it appear twice. */
  lemma {:induction false} SharedPermissionRepeats(db: CoreDb, roleIds: seq<nat>, i: nat, j: nat, p: Row)
    requires i < j < |roleIds|
    requires p in RolePermissionRows(db, roleIds[i]) && p in RolePermissionRows(db, roleIds[j])
    ensures multiset(PermissionsVia(db, roleIds))[p] >= 2
  {
    assert roleIds == roleIds[..j] + roleIds[j..];
    PermissionsViaAppend(db, roleIds[..j], roleIds[j..]);
    PermissionsViaMembership(db, roleIds[..j], p);
    assert roleIds[..j][i] == roleIds[i];
    PermissionsViaMembership(db, roleIds[j..], p);
    assert roleIds[j..][0] == roleIds[j];
  }

  /** The effective permissions of a user are exactly those one of the
      user's roles grants, repeated once per granting role. */
  lemma UserPermissionsAreGranted(db: CoreDb, userId: nat, p: Row)
    requires LinksExist(db)
    requires userId in db.users.rows
    ensures var perms := GetUserPermission(db, userId).value.permissions;
            && (p in perms <==> exists i :: 0 <= i < |Linked(db.userRoles, userId)|
                                            && p in RolePermissionRows(db, Linked(db.userRoles, userId)[i]))
            && multiset(perms)[p] == CountGrants(db, Linked(db.userRoles, userId), p)
  {
    var ids := Linked(db.userRoles, userId);
    var rows := RowsOf(db.roles, ids);
    assert RowIds(rows) == ids by {
      RowsOfAllPresent(db.roles, ids);
    }
    PermissionsViaMembership(db, ids, p);
    PermissionsViaCount(db, ids, p);
  }

  /** When every id exists, `RowsOf` keeps them all, in order. */
  lemma {:induction false} RowsOfAllPresent(t: Table, ids: seq<nat>)
    requires forall i :: 0 <= i < |ids| ==> ids[i] in t.rows
    ensures RowIds(RowsOf(t, ids)) == ids
    decreases |ids|
  {
    if |ids| > 0 {
      RowsOfAllPresent(t, ids[1..]);
    }
  }
}

=== FILE: core_routes.dfy ===
/** The role and permission routes of app/modules/core/routes.py. Each
    route is a function from the store and the request to the new store and
    the response, or the failure it raises. The `Security(...)` guard that
    checks the caller's scopes is not part of this model; the scope list
    each route hands it is (`RequiredScopes`). */
module CoreRoutes {
  import opened Outcome
  import opened QueryFactory
  import opened CoreSchema
  import opened CoreCrud

  /** RolePermissions: the role with its permissions. */
  datatype RolePermissions = RolePermissions(id: nat, description: Value, name: Value, permissions: seq<Row>)

  /** A body the schema rejects never reaches the route: 422. */
  function Body(parsed: Option<Payload>): (r: Result<Payload>)
    ensures r.Ok? <==> parsed.Some?
    ensures r.Ok? ==> r.value == parsed.value
    ensures r.Err? ==> FailedWith(r, UnprocessableEntity, InvalidBody)
  {
    match parsed
    case None => Raise(UnprocessableEntity, InvalidBody)
    case Some(p) => Ok(p)
  }

  // ---------------------------------------------------------------------
  // List helpers for the relationship lists

  /** The position of the first occurrence of `x`. */
  function IndexOf(s: seq<nat>, x: nat): (i: nat)
    requires x in s
    ensures i < |s| && s[i] == x && x !in s[..i]
  {
    if s[0] == x then 0
    else
      assert x in s[1..];
      var j := IndexOf(s[1..], x);
      assert s[..j + 1] == [s[0]] + s[1..][..j];
      j + 1
  }

  /** `list.remove(x)`: drops the first occurrence. */
  function RemoveFirst(s: seq<nat>, x: nat): (r: seq<nat>)
    requires x in s
    ensures exists i :: 0 <= i < |s| && s[i] == x && x !in s[..i] && r == s[..i] + s[i + 1..]
    ensures multiset(r) == multiset(s) - multiset{x}
  {
    var i := IndexOf(s, x);
    assert s == s[..i] + [x] + s[i + 1..];
    s[..i] + s[i + 1..]
  }

  /** The list without any occurrence of `x`: what the cascade leaves. */
  function Without(s: seq<nat>, x: nat): (r: seq<nat>)
    ensures forall y :: y in r <==> y in s && y != x
  {
    if |s| == 0 then []
    else if s[0] == x then Without(s[1..], x)
    else [s[0]] + Without(s[1..], x)
  }

  /** Removes `x` from every owner's list. */
  function CascadeDelete(links: map<nat, seq<nat>>, x: nat): (r: map<nat, seq<nat>>)
    ensures r.Keys == links.Keys
    ensures forall o :: o in r ==> forall y :: y in r[o] <==> y in links[o] && y != x
  {
    map o | o in links :: Without(links[o], x)
  }

  // ---------------------------------------------------------------------
  // Creating and updating

  /** The error FastAPI raises when a route's reply fails its response model. */
  const ResponseRejected: string := "ResponseValidationError"

  /** `check_if_exists(db, Model, [Model.column == value])` followed by
      `create_entry`: 400 "<Model> already exists" when some row holds the
      value in that column, otherwise exactly one new row. */
  function CreateUnique(t: Table, payload: Payload, column: string): (r: Result<(Table, Row)>)
    requires t.Valid()
    ensures r.Err? <==> exists k :: k in t.rows && Column(t.rows[k], column) == Column(Dump(payload), column)
    ensures r.Err? ==> FailedWith(r, BadRequest, ModelExists(t.name))
    ensures r.Ok? ==> var (t', row) := r.value;
                      && row.id !in t.rows && t'.rows == t.rows[row.id := Dump(payload)]
                      && row.fields == Dump(payload) && t'.Valid() && t'.name == t.name
  {
    SingleFilter(column, Column(Dump(payload), column));
    var taken :- CheckIfExists(t, [(column, Column(Dump(payload), column))]);
    Ok(CreateEntry(t, payload))
  }

  /** The writing part of create_role: the body must give a name and a
      description; 400 "Role already exists" when the name is taken;
      otherwise one new role, and nothing else changes. */
  function InsertRole(db: CoreDb, body: Record): (r: Result<(CoreDb, Row)>)
    requires db.Valid()
    ensures ParseRoleCreate(body).None? ==> FailedWith(r, UnprocessableEntity, InvalidBody)
    ensures ParseRoleCreate(body).Some? && (exists k :: k in db.roles.rows && Column(db.roles.rows[k], "name") == body["name"])
            ==> FailedWith(r, BadRequest, ModelExists(db.roles.name))
    ensures r.Ok? <==> ParseRoleCreate(body).Some?
                       && forall k :: k in db.roles.rows ==> Column(db.roles.rows[k], "name") != body["name"]
    ensures r.Ok? ==> var (db', role) := r.value;
                      && role.id !in db.roles.rows
                      && role.fields == map["name" := body["name"], "description" := body["description"]]
                      && db'.roles.rows == db.roles.rows[role.id := role.fields]
                      && db' == db.(roles := db'.roles)
  {
    var role :- Body(ParseRoleCreate(body));
    assert Dump(role) == role.values;
    var created :- CreateUnique(db.roles, role, "name");
    Ok((db.(roles := created.0), created.1))
  }

  /** The writing part of create_permission: as `InsertRole`, on the scope. */
  function InsertPermission(db: CoreDb, body: Record): (r: Result<(CoreDb, Row)>)
    requires db.Valid()
    ensures ParsePermissionCreate(body).None? ==> FailedWith(r, UnprocessableEntity, InvalidBody)
    ensures ParsePermissionCreate(body).Some?
            && (exists k :: k in db.permissions.rows && Column(db.permissions.rows[k], "scope") == body["scope"])
            ==> FailedWith(r, BadRequest, ModelExists(db.permissions.name))
    ensures r.Ok? <==> ParsePermissionCreate(body).Some?
                       && forall k :: k in db.permissions.rows ==> Column(db.permissions.rows[k], "scope") != body["scope"]
    ensures r.Ok? ==> var (db', permission) := r.value;
                      && permission.id !in db.permissions.rows
                      && permission.fields == map["scope" := body["scope"], "description" := body["description"]]
                      && db'.permissions.rows == db.permissions.rows[permission.id := permission.fields]
                      && db' == db.(permissions := db'.permissions)
  {
    var permission :- Body(ParsePermissionCreate(body));
    assert Dump(permission) == permission.values;
    var created :- CreateUnique(db.permissions, permission, "scope");
    Ok((db.(permissions := created.0), created.1))
  }

  /** create_role. The role is committed before FastAPI checks the reply
      against `RoleBase`, whose bounds `RoleCreate` does not impose: a name
      outside 3..50 characters or a description over 255 gives a 500, with
      the role stored all the same. */
  function CreateRole(db: CoreDb, body: Record): (r: (CoreDb, Result<Row>))
    requires db.Valid()
    ensures ParseRoleCreate(body).None? ==> r.0 == db && FailedWith(r.1, UnprocessableEntity, InvalidBody)
    ensures ParseRoleCreate(body).Some? && (exists k :: k in db.roles.rows && Column(db.roles.rows[k], "name") == body["name"])
            ==> r.0 == db && FailedWith(r.1, BadRequest, ModelExists(db.roles.name))
    ensures r.1.Ok? <==> && ParseRoleCreate(body).Some?
                         && (forall k :: k in db.roles.rows ==> Column(db.roles.rows[k], "name") != body["name"])
                         && 3 <= |body["name"].s| <= 50 && |body["description"].s| <= 255
    ensures r.1.Ok? ==> && RoleBaseAccepts(r.1.value.fields)
                        && r.1.value.id !in db.roles.rows
                        && r.1.value.fields == map["name" := body["name"], "description" := body["description"]]
                        && r.0 == db.(roles := r.0.roles)
                        && r.0.roles.rows == db.roles.rows[r.1.value.id := r.1.value.fields]
    ensures && ParseRoleCreate(body).Some?
            && (forall k :: k in db.roles.rows ==> Column(db.roles.rows[k], "name") != body["name"])
            && r.1.Err?
            ==> && r.1.failure == Internal(ResponseRejected)
                && r.0 == db.(roles := r.0.roles)
                && |r.0.roles.rows| == |db.roles.rows| + 1
                && (forall k :: k in db.roles.rows ==> k in r.0.roles.rows && r.0.roles.rows[k] == db.roles.rows[k])
                && map["name" := body["name"], "description" := body["description"]] in r.0.roles.rows.Values
  {
    match InsertRole(db, body)
    case Err(f) => (db, Err(f))
    case Ok((db', role)) =>
      (db', if RoleBaseAccepts(role.fields) then Ok(role) else Err(Internal(ResponseRejected)))
  }

  /** create_permission. As `CreateRole`, against `PermissionBase`: an
      empty scope or one over 255 characters gives a 500 after the commit. */
  function CreatePermission(db: CoreDb, body: Record): (r: (CoreDb, Result<Row>))
    requires db.Valid()
    ensures ParsePermissionCreate(body).None? ==> r.0 == db && FailedWith(r.1, UnprocessableEntity, InvalidBody)
    ensures && ParsePermissionCreate(body).Some?
            && (exists k :: k in db.permissions.rows && Column(db.permissions.rows[k], "scope") == body["scope"])
            ==> r.0 == db && FailedWith(r.1, BadRequest, ModelExists(db.permissions.name))
    ensures r.1.Ok? <==> && ParsePermissionCreate(body).Some?
                         && (forall k :: k in db.permissions.rows ==> Column(db.permissions.rows[k], "scope") != body["scope"])
                         && 1 <= |body["scope"].s| <= 255
    ensures r.1.Ok? ==> && PermissionBaseAccepts(r.1.value.fields)
                        && r.1.value.id !in db.permissions.rows
                        && r.1.value.fields == map["scope" := body["scope"], "description" := body["description"]]
                        && r.0 == db.(permissions := r.0.permissions)
                        && r.0.permissions.rows == db.permissions.rows[r.1.value.id := r.1.value.fields]
    ensures && ParsePermissionCreate(body).Some?
            && (forall k :: k in db.permissions.rows ==> Column(db.permissions.rows[k], "scope") != body["scope"])
            && r.1.Err?
            ==> && r.1.failure == Internal(ResponseRejected)
                && r.0 == db.(permissions := r.0.permissions)
                && |r.0.permissions.rows| == |db.permissions.rows| + 1
                && (forall k :: k in db.permissions.rows ==> k in r.0.permissions.rows && r.0.permissions.rows[k] == db.permissions.rows[k])
                && map["scope" := body["scope"], "description" := body["description"]] in r.0.permissions.rows.Values
  {
    match InsertPermission(db, body)
    case Err(f) => (db, Err(f))
    case Ok((db', permission)) =>
      (db', if PermissionBaseAccepts(permission.fields) then Ok(permission) else Err(Internal(ResponseRejected)))
  }

  /** `check_if_exists(db, Model, [Model.column == value])` followed by
      `update_entry`. The uniqueness check runs first and does not exclude
      the row being updated; a body that leaves the column out compares
      with NULL. */
  function UpdateUnique(t: Table, id: int, payload: Payload, column: string): (r: Result<(Table, Row)>)
    requires t.Valid() && payload.Schema?
    ensures (exists k :: k in t.rows && Column(t.rows[k], column) == Column(payload.values, column))
            ==> FailedWith(r, BadRequest, ModelExists(t.name))
    ensures (forall k :: k in t.rows ==> Column(t.rows[k], column) != Column(payload.values, column))
            && !(id >= 0 && id in t.rows)
            ==> FailedWith(r, NotFound, ModelNotFound(t.name))
    ensures r.Ok? <==> (forall k :: k in t.rows ==> Column(t.rows[k], column) != Column(payload.values, column))
                       && id >= 0 && id in t.rows
    ensures r.Ok? ==> var (t', row) := r.value;
                      && row.id == id && t'.rows.Keys == t.rows.Keys && t'.rows[id] == row.fields
                      && (forall f :: f in Dump(payload) ==> Column(row.fields, f) == Dump(payload)[f])
                      && (forall f :: f !in Dump(payload) ==> Column(row.fields, f) == Column(t.rows[id], f))
                      && (forall k :: k in t.rows && k != id ==> t'.rows[k] == t.rows[k])
                      && t' == t.(rows := t'.rows)
  {
    SingleFilter(column, Column(payload.values, column));
    var taken :- CheckIfExists(t, [(column, Column(payload.values, column))]);
    UpdateEntry(t, id, payload)
  }

  /** update_specific_role: 422 for a body RoleUpdate rejects; 400 "Role
      already exists" when any role, this one included, has the name the
      body gives (or a NULL name, when the body gives none); then 404 for an
      unknown id. The columns the body supplies are overwritten, the others
      and every other role are kept. */
  function UpdateRole(db: CoreDb, roleId: int, body: Record): (r: Result<(CoreDb, Row)>)
    requires db.Valid()
    ensures ParseRoleUpdate(body).None? ==> FailedWith(r, UnprocessableEntity, InvalidBody)
    ensures ParseRoleUpdate(body).Some? && (exists k :: k in db.roles.rows && Column(db.roles.rows[k], "name") == Column(body, "name"))
            ==> FailedWith(r, BadRequest, ModelExists(db.roles.name))
    ensures r.Ok? <==> ParseRoleUpdate(body).Some?
                       && (forall k :: k in db.roles.rows ==> Column(db.roles.rows[k], "name") != Column(body, "name"))
                       && roleId >= 0 && roleId in db.roles.rows
    ensures r.Ok? ==> var (db', role) := r.value;
                      && role.id == roleId
                      && (forall f :: f in body && (f == "name" || f == "description") ==> Column(role.fields, f) == body[f])
                      && (forall f :: !(f in body && (f == "name" || f == "description"))
                                      ==> Column(role.fields, f) == Column(db.roles.rows[roleId], f))
                      && db' == db.(roles := db.roles.(rows := db.roles.rows[roleId := role.fields]))
  {
    var role :- Body(ParseRoleUpdate(body));
    var updated :- UpdateUnique(db.roles, roleId, role, "name");
    assert updated.0.rows == db.roles.rows[roleId := updated.1.fields];
    Ok((db.(roles := updated.0), updated.1))
  }

  /** update_specific_permission: as `update_specific_role`, on the scope. */
  function UpdatePermission(db: CoreDb, permissionId: int, body: Record): (r: Result<(CoreDb, Row)>)
    requires db.Valid()
    ensures ParsePermissionUpdate(body).None? ==> FailedWith(r, UnprocessableEntity, InvalidBody)
    ensures ParsePermissionUpdate(body).Some?
            && (exists k :: k in db.permissions.rows && Column(db.permissions.rows[k], "scope") == Column(body, "scope"))
            ==> FailedWith(r, BadRequest, ModelExists(db.permissions.name))
    ensures r.Ok? <==> ParsePermissionUpdate(body).Some?
                       && (forall k :: k in db.permissions.rows ==> Column(db.permissions.rows[k], "scope") != Column(body, "scope"))
                       && permissionId >= 0 && permissionId in db.permissions.rows
    ensures r.Ok? ==> var (db', permission) := r.value;
                      && permission.id == permissionId
                      && (forall f :: f in body && (f == "scope" || f == "description") ==> Column(permission.fields, f) == body[f])
                      && (forall f :: !(f in body && (f == "scope" || f == "description"))
                                      ==> Column(permission.fields, f) == Column(db.permissions.rows[permissionId], f))
                      && db' == db.(permissions := db.permissions.(rows := db.permissions.rows[permissionId := permission.fields]))
  {
    var permission :- Body(ParsePermissionUpdate(body));
    var updated :- UpdateUnique(db.permissions, permissionId, permission, "scope");
    assert updated.0.rows == db.permissions.rows[permissionId := updated.1.fields];
    Ok((db.(permissions := updated.0), updated.1))
  }

  // ---------------------------------------------------------------------
  // Deleting (the pivot rows of a deleted row go with it: ON DELETE CASCADE)

  /** delete_specific_role: 404 for an unknown id; otherwise the role is
      gone, from every user's roles too, and its permission links with it. */
  function DeleteRole(db: CoreDb, roleId: int): (r: Result<(CoreDb, DefaultResponse)>)
    ensures r.Ok? <==> roleId >= 0 && roleId in db.roles.rows
    ensures r.Err? ==> FailedWith(r, NotFound, ModelNotFound(db.roles.name))
    ensures r.Ok? ==> var (db', response) := r.value;
                      && response == DefaultResponse(true, "Deleted")
                      && db'.roles.rows == db.roles.rows - {roleId as nat}
                      && db'.users == db.users && db'.permissions == db.permissions
                      && db'.userRoles.Keys == db.userRoles.Keys
                      && (forall u :: u in db'.userRoles ==> roleId !in db'.userRoles[u])
                      && (forall u, x :: u in db.userRoles && x != roleId ==> (x in db'.userRoles[u] <==> x in db.userRoles[u]))
                      && db'.rolePermissions == db.rolePermissions - {roleId as nat}
  {
    var deleted :- DeleteById(db.roles, roleId);
    var rid := roleId as nat;
    assert deleted.0.rows == db.roles.rows - {rid};
    Ok((db.(roles := deleted.0, userRoles := CascadeDelete(db.userRoles, rid),
            rolePermissions := db.rolePermissions - {rid}), deleted.1))
  }

  /** delete_specific_permission: 404 for an unknown id; otherwise the
      permission is gone, from every role's permissions too. */
  function DeletePermission(db: CoreDb, permissionId: int): (r: Result<(CoreDb, DefaultResponse)>)
    ensures r.Ok? <==> permissionId >= 0 && permissionId in db.permissions.rows
    ensures r.Err? ==> FailedWith(r, NotFound, ModelNotFound(db.permissions.name))
    ensures r.Ok? ==> var (db', response) := r.value;
                      && response == DefaultResponse(true, "Deleted")
                      && db'.permissions.rows == db.permissions.rows - {permissionId as nat}
                      && db'.users == db.users && db'.roles == db.roles && db'.userRoles == db.userRoles
                      && db'.rolePermissions.Keys == db.rolePermissions.Keys
                      && (forall o :: o in db'.rolePermissions ==> permissionId !in db'.rolePermissions[o])
                      && (forall o, x :: o in db.rolePermissions && x != permissionId
                                         ==> (x in db'.rolePermissions[o] <==> x in db.rolePermissions[o]))
  {
    var deleted :- DeleteById(db.permissions, permissionId);
    var pid := permissionId as nat;
    assert deleted.0.rows == db.permissions.rows - {pid};
    Ok((db.(permissions := deleted.0, rolePermissions := CascadeDelete(db.rolePermissions, pid)), deleted.1))
  }

  // ---------------------------------------------------------------------
  // Linking roles to users

  /** link_role_to_user: 404 "User not found" for an unknown user, then 404
      "Role not found" for an unknown role; otherwise the role is appended
      to the user's roles and the user's roles are returned, the new one
      among them. Appending a role the user already holds changes nothing:
      the ORM's collection history compares objects, so no second pivot row
      is written. */
  function LinkRoleToUser(db: CoreDb, roleId: int, userId: int): (r: Result<(CoreDb, UserRoles)>)
    ensures !(userId >= 0 && userId in db.users.rows) ==> FailedWith(r, NotFound, ModelNotFound(db.users.name))
    ensures userId >= 0 && userId in db.users.rows && !(roleId >= 0 && roleId in db.roles.rows)
            ==> FailedWith(r, NotFound, ModelNotFound(db.roles.name))
    ensures r.Ok? <==> userId >= 0 && userId in db.users.rows && roleId >= 0 && roleId in db.roles.rows
    ensures r.Ok? ==> var (db', roles) := r.value;
                      && (roleId as nat !in Linked(db.userRoles, userId)
                          ==> Linked(db'.userRoles, userId) == Linked(db.userRoles, userId) + [roleId as nat])
                      && (roleId as nat in Linked(db.userRoles, userId) ==> db' == db)
                      && (forall u :: u != userId ==> Linked(db'.userRoles, u) == Linked(db.userRoles, u))
                      && db' == db.(userRoles := db'.userRoles)
                      && GetUserRoles(db', userId) == Ok(roles)
                      && Row(roleId as nat, db.roles.rows[roleId as nat]) in roles.roles
  {
    var user :- GetSpecificById(db.users, userId);
    var role :- GetSpecificById(db.roles, roleId);
    var held := Linked(db.userRoles, user.id);
    var db' := if role.id in held then db else db.(userRoles := db.userRoles[user.id := held + [role.id]]);
    Ok((db', UserRoles(user.id, Column(user.fields, "username"), RowsOf(db'.roles, Linked(db'.userRoles, user.id)))))
  }

  /** unlink_role_from_user: 404 for an unknown user, then for an unknown
      role; 400 "User doesn't have this role" when the user does not hold
      it; otherwise one occurrence of the role leaves the user's roles. */
  function UnlinkRoleFromUser(db: CoreDb, roleId: int, userId: int): (r: Result<(CoreDb, DefaultResponse)>)
    ensures !(userId >= 0 && userId in db.users.rows) ==> FailedWith(r, NotFound, ModelNotFound(db.users.name))
    ensures userId >= 0 && userId in db.users.rows && !(roleId >= 0 && roleId in db.roles.rows)
            ==> FailedWith(r, NotFound, ModelNotFound(db.roles.name))
    ensures userId >= 0 && userId in db.users.rows && roleId >= 0 && roleId in db.roles.rows
            && roleId !in Linked(db.userRoles, userId)
            ==> FailedWith(r, BadRequest, UserLacksRole)
    ensures r.Ok? <==> userId >= 0 && userId in db.users.rows && roleId >= 0 && roleId in db.roles.rows
                       && roleId in Linked(db.userRoles, userId)
    ensures r.Ok? ==> var (db', response) := r.value;
                      && response == DefaultResponse(true, "Role unlinked from user")
                      && multiset(Linked(db'.userRoles, userId))
                         == multiset(Linked(db.userRoles, userId)) - multiset{roleId as nat}
                      && (forall u :: u != userId ==> Linked(db'.userRoles, u) == Linked(db.userRoles, u))
                      && db' == db.(userRoles := db'.userRoles)
  {
    var user :- GetSpecificById(db.users, userId);
    var role :- GetSpecificById(db.roles, roleId);
    var held := Linked(db.userRoles, user.id);
    if role.id !in held then Raise(BadRequest, UserLacksRole)
    else
      Ok((db.(userRoles := db.userRoles[user.id := RemoveFirst(held, role.id)]),
          DefaultResponse(true, "Role unlinked from user")))
  }

  // ---------------------------------------------------------------------
  // Linking permissions to roles

  /** get_role_permission: 404 for an unknown role; otherwise the role with
      its permissions. */
  function GetRolePermission(db: CoreDb, roleId: int): (r: Result<RolePermissions>)
    ensures r.Ok? <==> roleId >= 0 && roleId in db.roles.rows
    ensures r.Err? ==> FailedWith(r, NotFound, ModelNotFound(db.roles.name))
    ensures r.Ok? ==> r.value.id == roleId
                      && r.value.name == Column(db.roles.rows[roleId], "name")
                      && r.value.description == Column(db.roles.rows[roleId], "description")
                      && forall p :: p in r.value.permissions <==>
                           p.id in Linked(db.rolePermissions, roleId) && p.id in db.permissions.rows
                           && p.fields == db.permissions.rows[p.id]
  {
    var role :- GetSpecificById(db.roles, roleId);
    Ok(RolePermissions(role.id, Column(role.fields, "description"), Column(role.fields, "name"),
                       RolePermissionRows(db, role.id)))
  }

  /** link_role_to_permission: 404 for an unknown role, then for an unknown
      permission; otherwise the permission is appended to the role's and the
      role is returned as `get_role_permission` shows it afterwards, the new
      permission among its permissions. As for users, a permission the role
      already has is not linked twice. */
  function LinkRoleToPermission(db: CoreDb, roleId: int, permissionId: int): (r: Result<(CoreDb, RolePermissions)>)
    ensures !(roleId >= 0 && roleId in db.roles.rows) ==> FailedWith(r, NotFound, ModelNotFound(db.roles.name))
    ensures roleId >= 0 && roleId in db.roles.rows && !(permissionId >= 0 && permissionId in db.permissions.rows)
            ==> FailedWith(r, NotFound, ModelNotFound(db.permissions.name))
    ensures r.Ok? <==> roleId >= 0 && roleId in db.roles.rows && permissionId >= 0 && permissionId in db.permissions.rows
    ensures r.Ok? ==> var (db', role) := r.value;
                      && (permissionId as nat !in Linked(db.rolePermissions, roleId)
                          ==> Linked(db'.rolePermissions, roleId) == Linked(db.rolePermissions, roleId) + [permissionId as nat])
                      && (permissionId as nat in Linked(db.rolePermissions, roleId) ==> db' == db)
                      && (forall o :: o != roleId ==> Linked(db'.rolePermissions, o) == Linked(db.rolePermissions, o))
                      && db' == db.(rolePermissions := db'.rolePermissions)
                      && GetRolePermission(db', roleId) == Ok(role)
                      && Row(permissionId as nat, db.permissions.rows[permissionId as nat]) in role.permissions
  {
    var role :- GetSpecificById(db.roles, roleId);
    var permission :- GetSpecificById(db.permissions, permissionId);
    var granted := Linked(db.rolePermissions, role.id);
    var db' := if permission.id in granted then db
               else db.(rolePermissions := db.rolePermissions[role.id := granted + [permission.id]]);
    Ok((db', RolePermissions(role.id, Column(role.fields, "description"), Column(role.fields, "name"),
                             RolePermissionRows(db', role.id))))
  }

  /** unlink_role_from_permission: 404 for an unknown role, then for an
      unknown permission; 400 "Role doesn't have this permission" when the
      role lacks it; otherwise one occurrence of it leaves the role's
      permissions. */
  function UnlinkRoleFromPermission(db: CoreDb, roleId: int, permissionId: int): (r: Result<(CoreDb, DefaultResponse)>)
    ensures !(roleId >= 0 && roleId in db.roles.rows) ==> FailedWith(r, NotFound, ModelNotFound(db.roles.name))
    ensures roleId >= 0 && roleId in db.roles.rows && !(permissionId >= 0 && permissionId in db.permissions.rows)
            ==> FailedWith(r, NotFound, ModelNotFound(db.permissions.name))
    ensures roleId >= 0 && roleId in db.roles.rows && permissionId >= 0 && permissionId in db.permissions.rows
            && permissionId !in Linked(db.rolePermissions, roleId)
            ==> FailedWith(r, BadRequest, RoleLacksPermission)
    ensures r.Ok? <==> roleId >= 0 && roleId in db.roles.rows && permissionId >= 0 && permissionId in db.permissions.rows
                       && permissionId in Linked(db.rolePermissions, roleId)
    ensures r.Ok? ==> var (db', response) := r.value;
                      && response == DefaultResponse(true, "Permission unlinked to role")
                      && multiset(Linked(db'.rolePermissions, roleId))
                         == multiset(Linked(db.rolePermissions, roleId)) - multiset{permissionId as nat}
                      && (forall o :: o != roleId ==> Linked(db'.rolePermissions, o) == Linked(db.rolePermissions, o))
                      && db' == db.(rolePermissions := db'.rolePermissions)
  {
    var role :- GetSpecificById(db.roles, roleId);
    var permission :- GetSpecificById(db.permissions, permissionId);
    var granted := Linked(db.rolePermissions, role.id);
    if permission.id !in granted then Raise(BadRequest, RoleLacksPermission)
    else
      Ok((db.(rolePermissions := db.rolePermissions[role.id := RemoveFirst(granted, permission.id)]),
          DefaultResponse(true, "Permission unlinked to role")))
  }

  // ---------------------------------------------------------------------
  // How the routes fit together

  /** Unlinking a role just linked to a user who did not hold it gives the
      user back exactly the roles it had. */
  lemma LinkThenUnlinkRestores(db: CoreDb, roleId: nat, userId: nat)
    requires userId in db.users.rows && roleId in db.roles.rows
    requires roleId !in Linked(db.userRoles, userId)
    ensures var linked := LinkRoleToUser(db, roleId, userId).value.0;
            var unlinked := UnlinkRoleFromUser(linked, roleId, userId);
            && unlinked.Ok?
            && (forall u :: Linked(unlinked.value.0.userRoles, u) == Linked(db.userRoles, u))
            && unlinked.value.0 == db.(userRoles := unlinked.value.0.userRoles)
  {
    var held := Linked(db.userRoles, userId);
    var linked := LinkRoleToUser(db, roleId, userId).value.0;
    assert Linked(linked.userRoles, userId) == held + [roleId];
    RemoveAppended(held, roleId);
    var unlinked := UnlinkRoleFromUser(linked, roleId, userId).value.0;
    assert unlinked.userRoles == linked.userRoles[userId := held];
  }

  /** Removing the first occurrence of an element just appended to a list
      without it gives the list back. */
  lemma RemoveAppended(s: seq<nat>, x: nat)
    requires x !in s
    ensures RemoveFirst(s + [x], x) == s
  {
    var i := IndexOf(s + [x], x);
    assert forall j :: 0 <= j < |s| ==> (s + [x])[j] == s[j];
    assert (s + [x])[..i] == s;
  }

  /** The same for a permission and a role. */
  lemma LinkThenUnlinkPermissionRestores(db: CoreDb, roleId: nat, permissionId: nat)
    requires roleId in db.roles.rows && permissionId in db.permissions.rows
    requires permissionId !in Linked(db.rolePermissions, roleId)
    ensures var linked := LinkRoleToPermission(db, roleId, permissionId).value.0;
            var unlinked := UnlinkRoleFromPermission(linked, roleId, permissionId);
            && unlinked.Ok?
            && (forall o :: Linked(unlinked.value.0.rolePermissions, o) == Linked(db.rolePermissions, o))
            && unlinked.value.0 == db.(rolePermissions := unlinked.value.0.rolePermissions)
  {
    var granted := Linked(db.rolePermissions, roleId);
    var linked := LinkRoleToPermission(db, roleId, permissionId).value.0;
    assert Linked(linked.rolePermissions, roleId) == granted + [permissionId];
    RemoveAppended(granted, permissionId);
    var unlinked := UnlinkRoleFromPermission(linked, roleId, permissionId).value.0;
    assert unlinked.rolePermissions == linked.rolePermissions[roleId := granted];
  }

  /** Grants add up over a concatenation of role lists. */
  lemma {:induction false} CountGrantsAppend(db: CoreDb, a: seq<nat>, b: seq<nat>, p: Row)
    ensures CountGrants(db, a + b, p) == CountGrants(db, a, p) + CountGrants(db, b, p)
    decreases |a|
  {
    if |a| > 0 {
      assert (a + b)[0] == a[0] && (a + b)[1..] == a[1..] + b;
      CountGrantsAppend(db, a[1..], b, p);
    } else {
      assert a + b == b;
    }
  }

  /** Unlinking a role from a user takes away exactly the grants that role
      contributed: a permission held through another role as well stays. */
  lemma UnlinkRoleDropsItsGrants(db: CoreDb, roleId: nat, userId: nat, p: Row)
    requires UnlinkRoleFromUser(db, roleId, userId).Ok?
    ensures var db' := UnlinkRoleFromUser(db, roleId, userId).value.0;
            CountGrants(db', Linked(db'.userRoles, userId), p) + multiset(RolePermissionRows(db, roleId))[p]
            == CountGrants(db, Linked(db.userRoles, userId), p)
  {
    var held := Linked(db.userRoles, userId);
    var db' := UnlinkRoleFromUser(db, roleId, userId).value.0;
    var i := IndexOf(held, roleId);
    assert Linked(db'.userRoles, userId) == held[..i] + held[i + 1..];
    assert held == held[..i] + ([roleId] + held[i + 1..]);
    CountGrantsAppend(db, held[..i], [roleId] + held[i + 1..], p);
    CountGrantsAppend(db, held[..i], held[i + 1..], p);
    assert ([roleId] + held[i + 1..])[1..] == held[i + 1..];
    assert RolePermissionRows(db', roleId) == RolePermissionRows(db, roleId);
    CountGrantsSameLinks(db, db', held[..i] + held[i + 1..], p);
  }

  /** Grants depend only on the permission links and the permission table. */
  lemma {:induction false} CountGrantsSameLinks(db: CoreDb, db': CoreDb, ids: seq<nat>, p: Row)
    requires db'.rolePermissions == db.rolePermissions && db'.permissions == db.permissions
    ensures CountGrants(db', ids, p) == CountGrants(db, ids, p)
    decreases |ids|
  {
    if |ids| > 0 {
      CountGrantsSameLinks(db, db', ids[1..], p);
    }
  }

  // ---------------------------------------------------------------------
  // The pivot rows keep joining existing rows

  lemma LinkKeepsLinksExist(db: CoreDb, roleId: int, userId: int)
    requires LinksExist(db) && LinkRoleToUser(db, roleId, userId).Ok?
    ensures LinksExist(LinkRoleToUser(db, roleId, userId).value.0)
  {
    var db' := LinkRoleToUser(db, roleId, userId).value.0;
    forall u, i | u in db'.userRoles && 0 <= i < |db'.userRoles[u]|
      ensures db'.userRoles[u][i] in db'.roles.rows
    {
      if u == userId && roleId as nat !in Linked(db.userRoles, u) {
        assert db'.userRoles[u] == Linked(db.userRoles, u) + [roleId as nat];
        if i < |Linked(db.userRoles, u)| {
          assert db'.userRoles[u][i] == db.userRoles[u][i];
        }
      } else {
        assert db'.userRoles[u] == Linked(db.userRoles, u);
      }
    }
  }

  lemma UnlinkKeepsLinksExist(db: CoreDb, roleId: int, userId: int)
    requires LinksExist(db) && UnlinkRoleFromUser(db, roleId, userId).Ok?
    ensures LinksExist(UnlinkRoleFromUser(db, roleId, userId).value.0)
  {
    var db' := UnlinkRoleFromUser(db, roleId, userId).value.0;
    forall u, i | u in db'.userRoles && 0 <= i < |db'.userRoles[u]|
      ensures db'.userRoles[u][i] in db'.roles.rows
    {
      if u == userId {
        assert db'.userRoles[u][i] in multiset(db'.userRoles[u]);
        assert db'.userRoles[u][i] in multiset(db.userRoles[u]);
      } else {
        assert db'.userRoles[u] == Linked(db.userRoles, u);
      }
    }
  }

  lemma LinkPermissionKeepsLinksExist(db: CoreDb, roleId: int, permissionId: int)
    requires LinksExist(db) && LinkRoleToPermission(db, roleId, permissionId).Ok?
    ensures LinksExist(LinkRoleToPermission(db, roleId, permissionId).value.0)
  {
    var db' := LinkRoleToPermission(db, roleId, permissionId).value.0;
    forall o, i | o in db'.rolePermissions && 0 <= i < |db'.rolePermissions[o]|
      ensures db'.rolePermissions[o][i] in db'.permissions.rows
    {
      if o == roleId && permissionId as nat !in Linked(db.rolePermissions, o) {
        assert db'.rolePermissions[o] == Linked(db.rolePermissions, o) + [permissionId as nat];
        if i < |Linked(db.rolePermissions, o)| {
          assert db'.rolePermissions[o][i] == db.rolePermissions[o][i];
        }
      } else {
        assert db'.rolePermissions[o] == Linked(db.rolePermissions, o);
      }
    }
  }

  lemma UnlinkPermissionKeepsLinksExist(db: CoreDb, roleId: int, permissionId: int)
    requires LinksExist(db) && UnlinkRoleFromPermission(db, roleId, permissionId).Ok?
    ensures LinksExist(UnlinkRoleFromPermission(db, roleId, permissionId).value.0)
  {
    var db' := UnlinkRoleFromPermission(db, roleId, permissionId).value.0;
    forall o, i | o in db'.rolePermissions && 0 <= i < |db'.rolePermissions[o]|
      ensures db'.rolePermissions[o][i] in db'.permissions.rows
    {
      if o == roleId {
        assert db'.rolePermissions[o][i] in multiset(db'.rolePermissions[o]);
        assert db'.rolePermissions[o][i] in multiset(db.rolePermissions[o]);
      } else {
        assert db'.rolePermissions[o] == Linked(db.rolePermissions, o);
      }
    }
  }

  // ---------------------------------------------------------------------
  // No pair is linked twice

  /** `list.remove` on a list without repeats removes every occurrence and
      leaves no repeat. */
  lemma RemoveFirstDistinct(s: seq<nat>, x: nat)
    requires Distinct(s) && x in s
    ensures Distinct(RemoveFirst(s, x)) && x !in RemoveFirst(s, x)
  {
    var i := IndexOf(s, x);
    var r := RemoveFirst(s, x);
    assert r == s[..i] + s[i + 1..];
    assert forall k :: 0 <= k < |r| ==> r[k] == s[if k < i then k else k + 1];
    forall a, b | 0 <= a < b < |r|
      ensures r[a] != r[b]
    {
      assert r[a] == s[if a < i then a else a + 1];
      assert r[b] == s[if b < i then b else b + 1];
    }
    forall k | 0 <= k < |r|
      ensures r[k] != x
    {
      assert r[k] == s[if k < i then k else k + 1];
    }
  }

  /** The cascade keeps a list without repeats so. */
  lemma {:induction false} WithoutDistinct(s: seq<nat>, x: nat)
    requires Distinct(s)
    ensures Distinct(Without(s, x))
    decreases |s|
  {
    if |s| > 0 {
      var tail := s[1..];
      assert forall a, b :: 0 <= a < b < |tail| ==> tail[a] == s[a + 1] && tail[b] == s[b + 1];
      WithoutDistinct(tail, x);
      if s[0] != x {
        var w := Without(tail, x);
        assert s[0] !in tail;
        assert s[0] !in w;
        var r := [s[0]] + w;
        assert Without(s, x) == r;
        forall a, b | 0 <= a < b < |r|
          ensures r[a] != r[b]
        {
          assert r[b] == w[b - 1];
          if a > 0 {
            assert r[a] == w[a - 1];
          }
        }
      }
    }
  }

  /** A list without repeats stays so when an id it lacks is appended. */
  lemma AppendFreshDistinct(s: seq<nat>, x: nat)
    requires Distinct(s) && x !in s
    ensures Distinct(s + [x])
  {
    var r := s + [x];
    forall a, b | 0 <= a < b < |r|
      ensures r[a] != r[b]
    {
      assert r[a] == s[a];
      if b < |s| {
        assert r[b] == s[b];
      }
    }
  }

  /** Linking and unlinking roles and users link no pair twice. */
  lemma UserLinksStayDistinct(db: CoreDb, roleId: int, userId: int)
    requires LinksDistinct(db)
    ensures LinkRoleToUser(db, roleId, userId).Ok? ==> LinksDistinct(LinkRoleToUser(db, roleId, userId).value.0)
    ensures UnlinkRoleFromUser(db, roleId, userId).Ok? ==> LinksDistinct(UnlinkRoleFromUser(db, roleId, userId).value.0)
  {
    if LinkRoleToUser(db, roleId, userId).Ok? {
      var held := Linked(db.userRoles, userId);
      if roleId as nat !in held {
        AppendFreshDistinct(held, roleId as nat);
      }
    }
    if UnlinkRoleFromUser(db, roleId, userId).Ok? {
      RemoveFirstDistinct(Linked(db.userRoles, userId), roleId as nat);
    }
  }

  /** The same for roles and permissions. */
  lemma PermissionLinksStayDistinct(db: CoreDb, roleId: int, permissionId: int)
    requires LinksDistinct(db)
    ensures LinkRoleToPermission(db, roleId, permissionId).Ok?
            ==> LinksDistinct(LinkRoleToPermission(db, roleId, permissionId).value.0)
    ensures UnlinkRoleFromPermission(db, roleId, permissionId).Ok?
            ==> LinksDistinct(UnlinkRoleFromPermission(db, roleId, permissionId).value.0)
  {
    if LinkRoleToPermission(db, roleId, permissionId).Ok? {
      var granted := Linked(db.rolePermissions, roleId);
      if permissionId as nat !in granted {
        AppendFreshDistinct(granted, permissionId as nat);
      }
    }
    if UnlinkRoleFromPermission(db, roleId, permissionId).Ok? {
      RemoveFirstDistinct(Linked(db.rolePermissions, roleId), permissionId as nat);
    }
  }

  /** Deletes only shorten pivot lists, so they link no pair twice either. */
  lemma DeletesKeepLinksDistinct(db: CoreDb, roleId: int, permissionId: int)
    requires LinksDistinct(db)
    ensures DeleteRole(db, roleId).Ok? ==> LinksDistinct(DeleteRole(db, roleId).value.0)
    ensures DeletePermission(db, permissionId).Ok? ==> LinksDistinct(DeletePermission(db, permissionId).value.0)
  {
    if DeleteRole(db, roleId).Ok? {
      forall u | u in db.userRoles
        ensures Distinct(Without(db.userRoles[u], roleId as nat))
      {
        WithoutDistinct(db.userRoles[u], roleId as nat);
      }
    }
    if DeletePermission(db, permissionId).Ok? {
      forall o | o in db.rolePermissions
        ensures Distinct(Without(db.rolePermissions[o], permissionId as nat))
      {
        WithoutDistinct(db.rolePermissions[o], permissionId as nat);
      }
    }
  }

  /** Creating and updating roles and permissions leave the pivot lists as
      they are, even when the reply is a 500. */
  lemma WritesKeepLinks(db: CoreDb, id: int, body: Record)
    requires db.Valid()
    ensures var r := CreateRole(db, body).0;
            r.userRoles == db.userRoles && r.rolePermissions == db.rolePermissions
    ensures var r := CreatePermission(db, body).0;
            r.userRoles == db.userRoles && r.rolePermissions == db.rolePermissions
    ensures UpdateRole(db, id, body).Ok? ==>
              var r := UpdateRole(db, id, body).value.0;
              r.userRoles == db.userRoles && r.rolePermissions == db.rolePermissions
    ensures UpdatePermission(db, id, body).Ok? ==>
              var r := UpdatePermission(db, id, body).value.0;
              r.userRoles == db.userRoles && r.rolePermissions == db.rolePermissions
  {
  }

  /** Linking a pair twice is linking it once. */
  lemma LinkTwiceIsOnce(db: CoreDb, roleId: int, userId: int, permissionId: int)
    ensures LinkRoleToUser(db, roleId, userId).Ok? ==>
              var db' := LinkRoleToUser(db, roleId, userId).value.0;
              LinkRoleToUser(db', roleId, userId) == LinkRoleToUser(db, roleId, userId)
    ensures LinkRoleToPermission(db, roleId, permissionId).Ok? ==>
              var db' := LinkRoleToPermission(db, roleId, permissionId).value.0;
              LinkRoleToPermission(db', roleId, permissionId) == LinkRoleToPermission(db, roleId, permissionId)
  {
  }

  /** One unlink undoes any number of links: after linking a role, held
      before or not, and unlinking it, the user no longer holds it. */
  lemma LinkThenUnlinkDrops(db: CoreDb, roleId: nat, userId: nat)
    requires LinksDistinct(db)
    requires userId in db.users.rows && roleId in db.roles.rows
    ensures var linked := LinkRoleToUser(db, roleId, userId).value.0;
            var unlinked := UnlinkRoleFromUser(linked, roleId, userId);
            unlinked.Ok? && roleId !in Linked(unlinked.value.0.userRoles, userId)
  {
    var linked := LinkRoleToUser(db, roleId, userId).value.0;
    UserLinksStayDistinct(db, roleId, userId);
    assert roleId in Linked(linked.userRoles, userId);
    RemoveFirstDistinct(Linked(linked.userRoles, userId), roleId);
  }

  /** The same for a permission and a role. */
  lemma LinkThenUnlinkPermissionDrops(db: CoreDb, roleId: nat, permissionId: nat)
    requires LinksDistinct(db)
    requires roleId in db.roles.rows && permissionId in db.permissions.rows
    ensures var linked := LinkRoleToPermission(db, roleId, permissionId).value.0;
            var unlinked := UnlinkRoleFromPermission(linked, roleId, permissionId);
            unlinked.Ok? && permissionId !in Linked(unlinked.value.0.rolePermissions, roleId)
  {
    var linked := LinkRoleToPermission(db, roleId, permissionId).value.0;
    PermissionLinksStayDistinct(db, roleId, permissionId);
    assert permissionId in Linked(linked.rolePermissions, roleId);
    RemoveFirstDistinct(Linked(linked.rolePermissions, roleId), permissionId);
  }

  /** Deleting a role or a permission takes its pivot rows with it, so no
      link is left dangling. */
  lemma DeleteKeepsLinksExist(db: CoreDb, roleId: int, permissionId: int)
    requires LinksExist(db)
    ensures DeleteRole(db, roleId).Ok? ==> LinksExist(DeleteRole(db, roleId).value.0)
    ensures DeletePermission(db, permissionId).Ok? ==> LinksExist(DeletePermission(db, permissionId).value.0)
  {
    if DeleteRole(db, roleId).Ok? {
      var db' := DeleteRole(db, roleId).value.0;
      forall u, i | u in db'.userRoles && 0 <= i < |db'.userRoles[u]|
        ensures db'.userRoles[u][i] in db'.roles.rows
      {
        var x := db'.userRoles[u][i];
        assert x in db'.userRoles[u];
        assert x in db.userRoles[u] && x != roleId;
        var j :| 0 <= j < |db.userRoles[u]| && db.userRoles[u][j] == x;
      }
    }
    if DeletePermission(db, permissionId).Ok? {
      var db' := DeletePermission(db, permissionId).value.0;
      forall o, i | o in db'.rolePermissions && 0 <= i < |db'.rolePermissions[o]|
        ensures db'.rolePermissions[o][i] in db'.permissions.rows
      {
        var x := db'.rolePermissions[o][i];
        assert x in db'.rolePermissions[o];
        assert x in db.rolePermissions[o] && x != permissionId;
        var j :| 0 <= j < |db.rolePermissions[o]| && db.rolePermissions[o][j] == x;
      }
    }
  }

  // ---------------------------------------------------------------------
  // The scopes each route demands

  datatype Route =
    | ListRoles | ReadRole | NewRole | EditRole | RemoveRole | ReadUserRoles | LinkUserRole
    | ReadRolePermissions | UnlinkUserRole | LinkRolePermission | UnlinkRolePermission
    | ListPermissions | ReadPermission | NewPermission | EditPermission | RemovePermission
    | ReadUserPermissions

  /** The `scopes=[...]` list each route passes to its guard. */
  function RequiredScopes(route: Route): seq<string>
  {
    ["admin", match route
              case ListRoles => "role:read"
              case ReadRole => "role:read"
              case NewRole => "role:create"
              case EditRole => "role:update"
              case RemoveRole => "role:delete"
              case ReadUserRoles => "role:read"
              case LinkUserRole => "role:link"
              case ReadRolePermissions => "role:read"
              case UnlinkUserRole => "role:link"
              case LinkRolePermission => "permission:link"
              case UnlinkRolePermission => "permission:link"
              case ListPermissions => "permission:read"
              case ReadPermission => "permission:read"
              case NewPermission => "permission:create"
              case EditPermission => "permission:update"
              case RemovePermission => "permission:delete"
              case ReadUserPermissions => "permission:read"]
  }

  /** The scopes app/core/permissions.py declares. */
  const DeclaredScopes: set<string> :=
    {"admin", "role:read", "role:create", "role:delete", "role:link",
     "permission:read", "permission:create", "permission:delete", "permission:link"}

  /** Every route asks for "admin" and exactly one other scope. That scope
      is one the scope table declares for every route except the two
      update routes, whose "role:update" and "permission:update" it does
      not declare. */
  lemma ScopesOfRoutes(route: Route)
    ensures |RequiredScopes(route)| == 2 && RequiredScopes(route)[0] == "admin" && RequiredScopes(route)[1] != "admin"
    ensures RequiredScopes(route)[1] in DeclaredScopes <==> route != EditRole && route != EditPermission
  {
  }
}

=== FILE: core_schema.dfy ===
/** The request bodies of the role and permission routes
    (app/modules/core/schema.py). A body is the JSON object as a record of
    column values; parsing it against a schema gives the `Schema` payload
    `create_entry` / `update_entry` receive, or nothing when pydantic
    rejects it. Only the declared `str` fields are modelled: an undeclared
    key is ignored, a key left out takes its default (None) and stays
    unset, JSON null is accepted only by an optional field, and a number or
    boolean is rejected by a `str` field. Lengths count characters. */
module CoreSchema {
  import opened Outcome
  import opened QueryFactory

  /** One declared string field: whether it is `str | None = None`, and its
      length bounds (`None` for no upper bound). */
  datatype StrField = StrField(name: string, optional: bool, minLength: nat, maxLength: Option<nat>)

  /** Whether the value the body gives for `f` (or its absence) passes the
      field's declaration. */
  predicate FieldAccepts(body: Record, f: StrField)
  {
    if f.name !in body then f.optional
    else match body[f.name]
      case Null => f.optional
      case Str(s) => f.minLength <= |s| && (f.maxLength.None? || |s| <= f.maxLength.value)
      case _ => false
  }

  /** The names of a list of fields. */
  function Names(fields: seq<StrField>): set<string>
  {
    if |fields| == 0 then {} else {fields[0].name} + Names(fields[1..])
  }

  /** Validates `body` against `fields`: accepted exactly when every field
      accepts; then every declared field has the body's value (NULL when
      left out), and the set fields are the declared ones the body names. */
  function Parse(body: Record, fields: seq<StrField>): (r: Option<Payload>)
    ensures r.Some? <==> forall i :: 0 <= i < |fields| ==> FieldAccepts(body, fields[i])
    ensures r.Some? ==> r.value.Schema? && r.value.values.Keys == Names(fields)
    ensures r.Some? ==> forall n :: n in r.value.values ==> r.value.values[n] == Column(body, n)
    ensures r.Some? ==> forall n :: n in r.value.setFields <==> n in Names(fields) && n in body
  {
    if |fields| == 0 then Some(Schema(map[], {}))
    else
      var f := fields[0];
      var tail := fields[1..];
      assert forall i :: 1 <= i < |fields| ==> fields[i] == tail[i - 1];
      assert Names(fields) == {f.name} + Names(tail);
      match Parse(body, tail)
      case None =>
        assert exists i :: 0 <= i < |tail| && !FieldAccepts(body, tail[i]);
        None
      case Some(rest) =>
        if !FieldAccepts(body, f) then None
        else
          var values := rest.values[f.name := Column(body, f.name)];
          var set_ := if f.name in body then rest.setFields + {f.name} else rest.setFields;
          assert values.Keys == Names(fields);
          assert forall i :: 0 <= i < |fields| ==> FieldAccepts(body, fields[i]);
          Some(Schema(values, set_))
  }

  const RoleUpdateFields: seq<StrField> :=
    [StrField("name", true, 3, Some(50)), StrField("description", true, 0, Some(255))]
  const RoleCreateFields: seq<StrField> :=
    [StrField("name", false, 0, None), StrField("description", false, 0, None)]
  const PermissionUpdateFields: seq<StrField> :=
    [StrField("scope", true, 1, Some(255)), StrField("description", true, 0, None)]
  const PermissionCreateFields: seq<StrField> :=
    [StrField("scope", false, 0, None), StrField("description", false, 0, None)]

  /** An optional string within bounds: left out, null, or a string whose
      length lies in `lo..hi`. */
  predicate OptionalText(body: Record, f: string, lo: nat, hi: nat)
  {
    f !in body || body[f] == Null || (body[f].Str? && lo <= |body[f].s| <= hi)
  }

  /** A required string: present and a string. */
  predicate RequiredText(body: Record, f: string)
  {
    f in body && body[f].Str?
  }

  /** RoleUpdate: an optional name of 3 to 50 characters and an optional
      description of at most 255. */
  function ParseRoleUpdate(body: Record): (r: Option<Payload>)
    ensures r.Some? <==> OptionalText(body, "name", 3, 50) && OptionalText(body, "description", 0, 255)
    ensures r.Some? ==> r.value == Schema(map["name" := Column(body, "name"), "description" := Column(body, "description")],
                                          set f | f in body && (f == "name" || f == "description"))
  {
    Parse(body, RoleUpdateFields)
  }

  /** RoleCreate: a name and a description, both required strings. */
  function ParseRoleCreate(body: Record): (r: Option<Payload>)
    ensures r.Some? <==> RequiredText(body, "name") && RequiredText(body, "description")
    ensures r.Some? ==> r.value == Schema(map["name" := body["name"], "description" := body["description"]],
                                          {"name", "description"})
  {
    Parse(body, RoleCreateFields)
  }

  /** PermissionUpdate: an optional scope of 1 to 255 characters and an
      optional description of any length. */
  function ParsePermissionUpdate(body: Record): (r: Option<Payload>)
    ensures r.Some? <==> OptionalText(body, "scope", 1, 255)
                         && ("description" !in body || body["description"] == Null || body["description"].Str?)
    ensures r.Some? ==> r.value == Schema(map["scope" := Column(body, "scope"), "description" := Column(body, "description")],
                                          set f | f in body && (f == "scope" || f == "description"))
  {
    Parse(body, PermissionUpdateFields)
  }

  /** PermissionCreate: a scope and a description, both required strings. */
  function ParsePermissionCreate(body: Record): (r: Option<Payload>)
    ensures r.Some? <==> RequiredText(body, "scope") && RequiredText(body, "description")
    ensures r.Some? ==> r.value == Schema(map["scope" := body["scope"], "description" := body["description"]],
                                          {"scope", "description"})
  {
    Parse(body, PermissionCreateFields)
  }

  /** `RoleBase`, the response model of the role routes: the stored name and
      description must meet the same bounds as in `RoleUpdate`. */
  predicate RoleBaseAccepts(row: Record)
  {
    ParseRoleUpdate(row).Some?
  }

  /** `PermissionBase`, the response model of the permission routes: the
      bounds of `PermissionUpdate`. */
  predicate PermissionBaseAccepts(row: Record)
  {
    ParsePermissionUpdate(row).Some?
  }

  /** Every field of an update schema is optional: the empty body is
      accepted, sets nothing and so, after `exclude_unset`, writes nothing. */
  lemma EmptyUpdatesWriteNothing()
    ensures ParseRoleUpdate(map[]).Some? && Dump(ParseRoleUpdate(map[]).value) == map[]
    ensures ParsePermissionUpdate(map[]).Some? && Dump(ParsePermissionUpdate(map[]).value) == map[]
  {
  }
}

=== FILE: crypto.dfy ===
/** The foreign cryptography the source calls: bcrypt for passwords and
    jose (HS384) for signed tokens. Both are values holding uninterpreted
    functions; the only facts about them are the soundness predicates below,
    which lemmas take as hypotheses and no operation relies on. */
module Crypto {
  import opened Outcome

  /** bcrypt: `hash(password, salt)` where `salt` stands for the random draw of
      `bcrypt.gensalt()`, and `verify(password, hash)` for `bcrypt.checkpw`. */
  datatype Hasher = Hasher(hash: (string, nat) -> string, verify: (string, string) -> bool)

  /** Verification succeeds for the hash of the same password, whatever the salt. */
  ghost predicate HasherSound(h: Hasher)
  {
    forall p, salt :: h.verify(p, h.hash(p, salt))
  }

  /** The claims of a token: its string-valued claims (`sub`, `scope`) and
      the expiry `exp` in epoch seconds. */
  datatype Claims = Claims(fields: map<string, string>, exp: int)

  /** jose under one signing key: `encode` signs claims into a token,
      `decode(token, now)` is `None` where `jwt.decode` raises JWTError. */
  datatype Codec = Codec(encode: Claims -> string, decode: (string, int) -> Option<Claims>)

  /** Decoding a token this codec signed gives back its claims up to and
      including the second of `exp`, and fails after it (jose rejects a
      token when `exp < now`). */
  ghost predicate CodecSound(c: Codec)
  {
    forall cl, now :: c.decode(c.encode(cl), now) == if now <= cl.exp then Some(cl) else None
  }
}

=== FILE: outcome.dfy ===
/** Outcomes shared by every operation of the model: either a value, or the
    failure an endpoint raises. An `HTTPException` becomes `Http` with its
    status code and fixed message; an exception that nothing translates into
    an HTTP error (it reaches the client as a 500) becomes `Internal`; a
    failure raised inside a helper this model does not describe becomes
    `Unmodelled`. */
module Outcome {

  // Status codes used by the endpoints (starlette.status).
  const BadRequest: int := 400
  const Unauthorized: int := 401
  const Forbidden: int := 403
  const NotFound: int := 404
  const UnprocessableEntity: int := 422

  // Settings of app/core/config.py, in the units they are declared in.
  const AccessTokenExpireMinutes: int := 15
  const RefreshTokenExpireMinutes: int := 10080
  const EmailTokenExpireHours: int := 24

  /** The fixed messages an HTTPException carries. */
  datatype Detail =
    | UsernameTaken
    | EmailTaken
    | UserNotFound
    | InactiveUser
    | IncorrectUserPassword
    | ClosedRegistration
    | CouldNotValidateCredentials
    | TokenExpired
    | EmailAlreadyVerified
    | UserLacksRole          // "User doesn't have this role"
    | RoleLacksPermission    // "Role doesn't have this permission"
    | ModelNotFound(model: string)   // "<Model> not found"
    | ModelExists(model: string)     // "<Model> already exists"
    | InvalidBody                    // FastAPI's answer to a body its schema rejects

  datatype Failure =
    | Http(status: int, detail: Detail, bearerChallenge: bool)
    | Internal(origin: string)
    | Unmodelled(helper: string)

  /** A value or a failure; usable with `:-`. */
  datatype Result<+T> = Ok(value: T) | Err(failure: Failure) {
    predicate IsFailure() {
      Err?
    }

    function PropagateFailure<U>(): Result<U>
      requires Err?
    {
      Err(failure)
    }

    function Extract(): T
      requires Ok?
    {
      value
    }
  }

  datatype Option<+T> = None | Some(value: T)

  /** An HTTPException without extra headers. */
  function Raise<T>(status: int, detail: Detail): Result<T>
  {
    Err(Http(status, detail, false))
  }

  /** True when `r` failed with exactly this status and message. */
  predicate FailedWith<T>(r: Result<T>, status: int, detail: Detail)
  {
    r.Err? && r.failure.Http? && r.failure.status == status && r.failure.detail == detail
  }
}

=== FILE: query_factory.dfy ===
/** The generic data-access helpers of app/core/query_factory.py over an
    in-memory table. A table row is a record of column values keyed by its
    primary key; the id sequence hands out keys that were never used, so a
    `Valid` table has every key below `next`. */
module QueryFactory {
  import opened Outcome

  /** A column value as the ORM hands it over; `Null` is SQL NULL / Python None. */
  datatype Value = Null | Str(s: string) | Int(i: int) | Bool(b: bool)

  type Record = map<string, Value>

  /** A row together with its primary key (the ORM object the helpers return). */
  datatype Row = Row(id: nat, fields: Record)

  /** A mapped table: `name` is the model class name used in messages. */
  datatype Table = Table(name: string, rows: map<nat, Record>, next: nat) {
    predicate Valid() {
      forall id :: id in rows ==> id < next
    }
  }

  /** `{"status": True, "msg": ...}` (DefaultResponse). */
  datatype DefaultResponse = DefaultResponse(status: bool, msg: string)

  /** What `create_entry` / `update_entry` receive: a plain dict, used as
      it is, or a pydantic schema object, of which only the fields the client
      set survive `schema.dict(exclude_unset=True)`. */
  datatype Payload = Dict(data: Record) | Schema(values: Record, setFields: set<string>)

  /** The value of column `f`; a column never written reads as NULL. */
  function Column(r: Record, f: string): Value
  {
    if f in r then r[f] else Null
  }

  /** A conjunction of `Model.column == value` filters (`== None` is `IS NULL`). */
  type Filter = seq<(string, Value)>

  predicate Satisfies(r: Record, fs: Filter)
  {
    forall i :: 0 <= i < |fs| ==> Column(r, fs[i].0) == fs[i].1
  }

  /** A one-filter query is a test on one column. */
  lemma SingleFilter(f: string, v: Value)
    ensures forall r :: Satisfies(r, [(f, v)]) <==> Column(r, f) == v
  {
    forall r ensures Satisfies(r, [(f, v)]) <==> Column(r, f) == v {
      assert [(f, v)][0] == (f, v);
    }
  }

  /** Python truthiness of a column value. */
  predicate Truthy(v: Value)
  {
    match v
    case Null => false
    case Str(s) => |s| > 0
    case Int(i) => i != 0
    case Bool(b) => b
  }

  /** The payload as the dict the helpers iterate over. */
  function Dump(p: Payload): (d: Record)
    ensures p.Dict? ==> d == p.data
    ensures p.Schema? ==> forall f :: f in d <==> f in p.values && f in p.setFields
    ensures p.Schema? ==> forall f :: f in d ==> d[f] == p.values[f]
  {
    match p
    case Dict(data) => data
    case Schema(values, setFields) => map f | f in values && f in setFields :: values[f]
  }

  /** Keys from `from` upward, first satisfying row. */
  function Scan(t: Table, fs: Filter, from: nat): (r: Option<nat>)
    ensures r.Some? ==> from <= r.value && r.value in t.rows && Satisfies(t.rows[r.value], fs)
    ensures r.Some? ==> forall k :: from <= k < r.value && k in t.rows ==> !Satisfies(t.rows[k], fs)
    ensures r.None? ==> forall k :: from <= k < t.next && k in t.rows ==> !Satisfies(t.rows[k], fs)
    decreases t.next - from
  {
    if from >= t.next then None
    else if from in t.rows && Satisfies(t.rows[from], fs) then Some(from)
    else Scan(t, fs, from + 1)
  }

  /** `select(model).where(*filters)...first()`: the key of the first
      satisfying row, taking rows in key order. */
  function FirstMatch(t: Table, fs: Filter): (r: Option<nat>)
    requires t.Valid()
    ensures r.None? <==> forall k :: k in t.rows ==> !Satisfies(t.rows[k], fs)
    ensures r.Some? ==> r.value in t.rows && Satisfies(t.rows[r.value], fs)
    ensures r.Some? ==> forall k :: k in t.rows && k < r.value ==> !Satisfies(t.rows[k], fs)
  {
    Scan(t, fs, 0)
  }

  /** get_all: every row of the table, each exactly once. */
  method GetAll(t: Table) returns (r: seq<Row>)
    ensures |r| == |t.rows|
    ensures forall i :: 0 <= i < |r| ==> r[i].id in t.rows && r[i].fields == t.rows[r[i].id]
    ensures forall id :: id in t.rows ==> exists i :: 0 <= i < |r| && r[i].id == id
  {
    r := [];
    var left := t.rows.Keys;
    while left != {}
      invariant left <= t.rows.Keys
      invariant |r| + |left| == |t.rows|
      invariant forall i :: 0 <= i < |r| ==> r[i].id in t.rows && r[i].id !in left && r[i].fields == t.rows[r[i].id]
      invariant forall id :: id in t.rows && id !in left ==> exists i :: 0 <= i < |r| && r[i].id == id
      decreases |left|
    {
      var id :| id in left;
      ghost var before := r;
      r := r + [Row(id, t.rows[id])];
      left := left - {id};
      forall k | k in t.rows && k !in left
        ensures exists i :: 0 <= i < |r| && r[i].id == k
      {
        if k == id {
          assert r[|r| - 1].id == k;
        } else {
          var i :| 0 <= i < |before| && before[i].id == k;
          assert r[i].id == k;
        }
      }
    }
  }

  /** get_specific_by_id: the row with that key, or 404 "<Model> not found". */
  function GetSpecificById(t: Table, id: int): (r: Result<Row>)
    ensures r.Ok? <==> id >= 0 && id in t.rows
    ensures r.Ok? ==> r.value.id == id && r.value.fields == t.rows[id]
    ensures r.Err? ==> FailedWith(r, NotFound, ModelNotFound(t.name))
  {
    if id >= 0 && id in t.rows then Ok(Row(id, t.rows[id]))
    else Raise(NotFound, ModelNotFound(t.name))
  }

  /** delete_by_id: 404 for an absent key, otherwise exactly that row goes. */
  function DeleteById(t: Table, id: int): (r: Result<(Table, DefaultResponse)>)
    ensures r.Ok? <==> id >= 0 && id in t.rows
    ensures r.Err? ==> FailedWith(r, NotFound, ModelNotFound(t.name))
    ensures r.Ok? ==> r.value.1 == DefaultResponse(true, "Deleted")
    ensures r.Ok? ==> r.value.0.rows.Keys == t.rows.Keys - {id as nat}
    ensures r.Ok? ==> forall k :: k in r.value.0.rows ==> r.value.0.rows[k] == t.rows[k]
    ensures r.Ok? ==> r.value.0.name == t.name && r.value.0.next == t.next
    ensures r.Ok? && t.Valid() ==> r.value.0.Valid()
  {
    var row :- GetSpecificById(t, id);
    Ok((t.(rows := t.rows - {row.id}), DefaultResponse(true, "Deleted")))
  }

  /** check_if_exists: 400 "<Model> already exists" iff some row satisfies
      every filter; otherwise False and nothing changes. */
  function CheckIfExists(t: Table, fs: Filter): (r: Result<bool>)
    requires t.Valid()
    ensures r.Err? <==> exists k :: k in t.rows && Satisfies(t.rows[k], fs)
    ensures r.Err? ==> FailedWith(r, BadRequest, ModelExists(t.name))
    ensures r.Ok? ==> r.value == false
  {
    if FirstMatch(t, fs).Some? then Raise(BadRequest, ModelExists(t.name)) else Ok(false)
  }

  /** create_entry: one new row under a key never used before. */
  function CreateEntry(t: Table, p: Payload): (r: (Table, Row))
    ensures r.0.rows.Keys == t.rows.Keys + {r.1.id}
    ensures r.1.id in r.0.rows && r.0.rows[r.1.id] == Dump(p) && r.1.fields == Dump(p)
    ensures t.Valid() ==> r.1.id !in t.rows && |r.0.rows| == |t.rows| + 1 && r.0.Valid()
    ensures t.Valid() ==> forall k :: k in t.rows ==> r.0.rows[k] == t.rows[k]
    ensures t.Valid() ==> r.0.rows == t.rows[r.1.id := r.1.fields]
    ensures r.0.name == t.name
  {
    var id := t.next;
    (Table(t.name, t.rows[id := Dump(p)], t.next + 1), Row(id, Dump(p)))
  }

  /** update_entry: 404 for an absent key; otherwise the supplied columns are
      overwritten and every other column and every other row stays. */
  function UpdateEntry(t: Table, id: int, p: Payload): (r: Result<(Table, Row)>)
    ensures r.Ok? <==> id >= 0 && id in t.rows
    ensures r.Err? ==> FailedWith(r, NotFound, ModelNotFound(t.name))
    ensures r.Ok? ==> r.value.1.id == id && r.value.0.rows.Keys == t.rows.Keys
    ensures r.Ok? ==> r.value.0.rows[id] == r.value.1.fields
    ensures r.Ok? ==> forall f :: f in Dump(p) ==> Column(r.value.1.fields, f) == Dump(p)[f]
    ensures r.Ok? ==> forall f :: f !in Dump(p) ==> Column(r.value.1.fields, f) == Column(t.rows[id], f)
    ensures r.Ok? ==> forall k :: k in t.rows && k != id ==> r.value.0.rows[k] == t.rows[k]
    ensures r.Ok? ==> r.value.0.name == t.name && r.value.0.next == t.next
  {
    var row :- GetSpecificById(t, id);
    var updated := row.fields + Dump(p);
    Ok((t.(rows := t.rows[row.id := updated]), Row(row.id, updated)))
  }
}

=== FILE: security.dfy ===
/** app/core/security.py: credential checking, access-token claims and the
    per-request gate (`check_jwt`, then `get_current_active_user`). The
    clock is the parameter `now`, in epoch seconds. */
module Security {
  import opened Outcome
  import opened Crypto
  import opened UserCrud
  import AuthSchema

  /** The lifetime `create_access_token` falls back to: 15 minutes. */
  const FallbackExpireSeconds: int := 15 * 60

  /** The exception every token failure of `check_jwt` raises. */
  const CredentialsException: Failure := Http(Unauthorized, CouldNotValidateCredentials, true)

  /** authenticate_user. `None` stands for the `False` of the source: an
      unknown username and a wrong password give the same answer. */
  function AuthenticateUser(rows: Users, h: Hasher, username: string, password: string): (r: Option<User>)
    ensures (forall i :: 0 <= i < |rows| ==> rows[i].username != username) ==> r.None?
    ensures forall i :: 0 <= i < |rows| && rows[i].username == username
                        && (forall j :: 0 <= j < i ==> rows[j].username != username)
                        ==> r == if h.verify(password, rows[i].password) then Some(rows[i]) else None
    ensures r.Some? ==> r.value in rows && r.value.username == username && h.verify(password, r.value.password)
  {
    match GetUserByUsername(rows, username)
    case None => None
    case Some(u) => if h.verify(password, u.password) then Some(u) else None
  }

  /** The claims create_access_token signs. `delta` is the optional
      `expires_delta` in seconds; a zero timedelta is falsy in Python, so it
      falls back to 15 minutes like an omitted one. The caller's dict is a
      value here, so copying it before the update is implicit. */
  function AccessTokenClaims(data: map<string, string>, delta: Option<int>, now: int): (c: Claims)
    ensures delta.Some? && delta.value != 0 ==> c.exp == now + delta.value
    ensures delta == None || delta == Some(0) ==> c.exp == now + FallbackExpireSeconds
    ensures forall k :: k in c.fields <==> k in data && k != "exp"
    ensures forall k :: k in c.fields ==> c.fields[k] == data[k]
  {
    var expire := if delta.Some? && delta.value != 0 then now + delta.value else now + FallbackExpireSeconds;
    Claims(data - {"exp"}, expire)
  }

  /** create_access_token: under a sound codec the token decodes to the
      caller's data until its expiry second and is refused after it. */
  function CreateAccessToken(codec: Codec, data: map<string, string>, delta: Option<int>, now: int): (token: string)
    ensures CodecSound(codec) ==>
              var expiry := if delta.Some? && delta.value != 0 then now + delta.value else now + FallbackExpireSeconds;
              forall t :: codec.decode(token, t) == if t <= expiry then Some(Claims(data - {"exp"}, expiry)) else None
  {
    codec.encode(AccessTokenClaims(data, delta, now))
  }

  /** The `sub` claim of a token, when it decodes and carries one. */
  function Subject(codec: Codec, token: string, now: int): Option<string>
  {
    match codec.decode(token, now)
    case None => None
    case Some(claims) => if "sub" in claims.fields then Some(claims.fields["sub"]) else None
  }

  /** check_jwt. A token that fails to decode or has no `sub` gives 401;
      the subject then goes through `TokenData`, whose pydantic
      ValidationError is not a JWTError and so escapes unhandled; the user
      looked up is the one named by the normalised subject, and 401 again if
      there is none. */
  function CheckJwt(codec: Codec, rows: Users, token: string, now: int): (r: Result<User>)
    ensures Subject(codec, token, now).None? ==> r == Err(CredentialsException)
    ensures r.Ok? ==> Subject(codec, token, now).Some?
    ensures r.Ok? ==> var sub := Subject(codec, token, now).value;
                      AuthSchema.ValidateTokenData(Some(sub)).Some?
                      && Some(r.value.username) == AuthSchema.ValidateTokenData(Some(sub)).value.username
    ensures r.Ok? ==> exists j :: 0 <= j < |rows| && rows[j] == r.value
                                  && forall k :: 0 <= k < j ==> rows[k].username != r.value.username
    ensures Subject(codec, token, now).Some? ==>
              var data := AuthSchema.ValidateTokenData(Some(Subject(codec, token, now).value));
              data.Some? && (forall i :: 0 <= i < |rows| ==> Some(rows[i].username) != data.value.username)
              ==> r == Err(CredentialsException)
    ensures r.Err? && Subject(codec, token, now).Some? && r.failure != CredentialsException
            ==> r.failure.Internal? && AuthSchema.ValidateTokenData(Some(Subject(codec, token, now).value)).None?
    ensures Subject(codec, token, now).Some? && AuthSchema.ValidateTokenData(Some(Subject(codec, token, now).value)).None?
            ==> r.Err? && r.failure.Internal?
    ensures Subject(codec, token, now).Some? ==>
              var data := AuthSchema.ValidateTokenData(Some(Subject(codec, token, now).value));
              data.Some? ==>
                forall i :: 0 <= i < |rows| && Some(rows[i].username) == data.value.username
                            && (forall j :: 0 <= j < i ==> Some(rows[j].username) != data.value.username)
                            ==> r == Ok(rows[i])
  {
    match Subject(codec, token, now)
    case None => Err(CredentialsException)
    case Some(sub) =>
      match AuthSchema.ValidateTokenData(Some(sub))
      case None => Err(Internal("pydantic.ValidationError"))
      case Some(data) =>
        match GetUserByUsername(rows, data.username.value)
        case None => Err(CredentialsException)
        case Some(u) =>
          Ok(u)
  }

  /** get_current_active_user: an inactive (or NULL-flagged) user gives 400
      "Inactive user"; an active one is passed on unchanged. */
  function GetCurrentActiveUser(u: User): (r: Result<User>)
    ensures r.Ok? <==> u.isActive == Some(true)
    ensures r.Ok? ==> r.value == u
    ensures r.Err? ==> FailedWith(r, BadRequest, InactiveUser)
  {
    if !IsActive(u) then Raise(BadRequest, InactiveUser) else Ok(u)
  }

  /** The dependency chain a protected route runs: the token checks come
      first, so a bad token gives 401 even for an inactive user. */
  function CurrentActiveUser(codec: Codec, rows: Users, token: string, now: int): (r: Result<User>)
    ensures CheckJwt(codec, rows, token, now).Err? ==> r == CheckJwt(codec, rows, token, now)
    ensures r.Ok? <==> CheckJwt(codec, rows, token, now).Ok? && IsActive(CheckJwt(codec, rows, token, now).value)
    ensures r.Ok? ==> r == CheckJwt(codec, rows, token, now)
  {
    var u :- CheckJwt(codec, rows, token, now);
    GetCurrentActiveUser(u)
  }

  /** For a subject already in normal form, `check_jwt` returns the first
      user whose username is exactly the subject, and 401 when there is none. */
  lemma CheckJwtNormalSubject(codec: Codec, rows: Users, token: string, now: int)
    requires Subject(codec, token, now).Some? && AuthSchema.IsNormalUsername(Subject(codec, token, now).value)
    ensures var sub := Subject(codec, token, now).value;
            CheckJwt(codec, rows, token, now)
            == match GetUserByUsername(rows, sub)
               case None => Err(CredentialsException)
               case Some(u) => Ok(u)
  {
    AuthSchema.NormalIffUnchanged(Subject(codec, token, now).value);
  }
}

=== FILE: storage.dfy ===
/** app/resources/storage_method.py: where revoked tokens are recorded.
    `LocalStorage` is a map from key to the expiry it was recorded with;
    there is no removal. Of `RedisStorage` only the TTL arithmetic is
    modelled: the server itself is outside. */
module Storage {

  /** The in-memory backend. The source stores the expiry rendered by
      `str(datetime.fromtimestamp(...))`; the model keeps the timestamp. */
  datatype LocalStorage = LocalStorage(entries: map<string, int>)

  /** `LocalStorage()`. */
  function Fresh(): (s: LocalStorage)
    ensures forall k :: !Contains(s, k)
  {
    LocalStorage(map[])
  }

  /** `key in storage`. */
  predicate Contains(s: LocalStorage, key: string)
  {
    key in s.entries
  }

  /** `set_key`: the key is contained afterwards with this expiry (the last
      write wins); every other key keeps its membership and its expiry. */
  function SetKey(s: LocalStorage, key: string, expire: int): (r: LocalStorage)
    ensures Contains(r, key) && r.entries[key] == expire
    ensures forall k :: k != key ==> (Contains(r, k) <==> Contains(s, k))
    ensures forall k :: k != key && k in s.entries ==> k in r.entries && r.entries[k] == s.entries[k]
  {
    LocalStorage(s.entries[key := expire])
  }

  /** A run of `set_key` calls, in order. */
  function SetAll(s: LocalStorage, writes: seq<(string, int)>): LocalStorage
    decreases |writes|
  {
    if |writes| == 0 then s else SetAll(SetKey(s, writes[0].0, writes[0].1), writes[1..])
  }

  /** Nothing ever leaves the store: a contained key stays contained. */
  lemma {:induction false} ContainedStaysContained(s: LocalStorage, writes: seq<(string, int)>, key: string)
    requires Contains(s, key)
    ensures Contains(SetAll(s, writes), key)
    decreases |writes|
  {
    if |writes| > 0 {
      ContainedStaysContained(SetKey(s, writes[0].0, writes[0].1), writes[1..], key);
    }
  }

  /** Starting empty, a key is contained exactly when some call wrote it,
      and its expiry is that of the last such call. */
  lemma {:induction false} ContainsIffWritten(s: LocalStorage, writes: seq<(string, int)>, key: string)
    ensures Contains(SetAll(s, writes), key) <==> Contains(s, key) || exists i :: 0 <= i < |writes| && writes[i].0 == key
    ensures forall i :: 0 <= i < |writes| && writes[i].0 == key && (forall j :: i < j < |writes| ==> writes[j].0 != key)
                        ==> SetAll(s, writes).entries[key] == writes[i].1
    decreases |writes|
  {
    if |writes| > 0 {
      var s' := SetKey(s, writes[0].0, writes[0].1);
      var rest := writes[1..];
      ContainsIffWritten(s', rest, key);
      if exists i :: 0 <= i < |rest| && rest[i].0 == key {
        var i :| 0 <= i < |rest| && rest[i].0 == key;
        assert writes[i + 1].0 == key;
      }
      if exists i :: 0 <= i < |writes| && writes[i].0 == key {
        var i :| 0 <= i < |writes| && writes[i].0 == key;
        if i > 0 { assert rest[i - 1].0 == key; }
      }
      forall i | 0 <= i < |writes| && writes[i].0 == key && (forall j :: i < j < |writes| ==> writes[j].0 != key)
        ensures SetAll(s, writes).entries[key] == writes[i].1
      {
        if i > 0 {
          assert rest[i - 1] == writes[i];
          assert forall j :: i - 1 < j < |rest| ==> rest[j].0 != key by {
            forall j | i - 1 < j < |rest| ensures rest[j].0 != key { assert rest[j] == writes[j + 1]; }
          }
        } else {
          assert forall j :: 0 <= j < |rest| ==> rest[j].0 != key by {
            forall j | 0 <= j < |rest| ensures rest[j].0 != key { assert rest[j] == writes[j + 1]; }
          }
          SetAllUntouched(s', rest, key);
        }
      }
    }
  }

  /** Calls that never name a key leave its entry alone. */
  lemma {:induction false} SetAllUntouched(s: LocalStorage, writes: seq<(string, int)>, key: string)
    requires Contains(s, key)
    requires forall j :: 0 <= j < |writes| ==> writes[j].0 != key
    ensures Contains(SetAll(s, writes), key) && SetAll(s, writes).entries[key] == s.entries[key]
    decreases |writes|
  {
    if |writes| > 0 {
      SetAllUntouched(SetKey(s, writes[0].0, writes[0].1), writes[1..], key);
    }
  }

  /** Recording the same key and expiry twice is the same as once. */
  lemma SetKeyIdempotent(s: LocalStorage, key: string, expire: int)
    ensures SetKey(SetKey(s, key, expire), key, expire) == SetKey(s, key, expire)
  {
  }

  // ---------------------------------------------------------------------
  // RedisStorage

  const MicrosPerSecond: int := 1_000_000

  /** `int(x)` of a float: truncation toward zero, not Dafny's floor. */
  function TruncateSeconds(micros: int): (s: int)
    ensures micros >= 0 ==> s * MicrosPerSecond <= micros < (s + 1) * MicrosPerSecond
    ensures micros < 0 ==> (s - 1) * MicrosPerSecond < micros <= s * MicrosPerSecond
  {
    if micros >= 0 then micros / MicrosPerSecond else -((-micros) / MicrosPerSecond)
  }

  /** The TTL `RedisStorage.set_key` gives the key: seconds from the
      truncated current epoch time (`nowMicros`, microseconds since the
      epoch) to `expire`. */
  function RedisTtl(expire: int, nowMicros: int): (ttl: int)
    ensures nowMicros >= 0 ==> (expire - ttl) * MicrosPerSecond <= nowMicros < (expire - ttl + 1) * MicrosPerSecond
    ensures nowMicros < 0 ==> (expire - ttl - 1) * MicrosPerSecond < nowMicros <= (expire - ttl) * MicrosPerSecond
  {
    expire - TruncateSeconds(nowMicros)
  }

  /** The TTL is positive exactly when `expire` lies beyond the current
      whole second. */
  lemma RedisTtlPositive(expire: int, nowMicros: int)
    requires nowMicros >= 0
    ensures RedisTtl(expire, nowMicros) > 0 <==> expire * MicrosPerSecond > nowMicros - nowMicros % MicrosPerSecond
  {
  }

  datatype Backend = Local | Redis

  /** `storage`: the in-memory backend unless REDIS_CONNECTION is set. */
  function SelectBackend(redisConnection: bool): (b: Backend)
    ensures b == Local <==> !redisConnection
    ensures b == Redis <==> redisConnection
  {
    if !redisConnection then Local else Redis
  }
}

=== FILE: user_crud.dfy ===
/** The user queries and writes over a table of users: the synchronous
    lookups of app/crud/admin.py, which read the `users` table of
    app/models/user.py, and the asynchronous checks and `create_new_user` of
    app/auth/crud.py, which work on the `user` table of
    app/modules/users/models.py. The two tables have the same columns, so
    one row type serves both; a caller says which table its rows stand for.
    A table is the sequence of rows a query sees, in that order, so
    `.first()` is the earliest matching row. */
module UserCrud {
  import opened Outcome
  import opened Crypto

  /** A row of the users table. `isActive` is `None` when the column is NULL. */
  datatype User = User(id: int, username: string, email: string, password: string, isActive: Option<bool>)

  type Users = seq<User>

  /** The body of a signup request (UserCreate). */
  datatype UserCreate = UserCreate(username: string, email: string, password: string, isActive: Option<bool>)

  /** The three `.filter(User.<column> == value)` queries. */
  datatype Lookup = ById(id: int) | ByEmail(email: string) | ByUsername(username: string)

  predicate Matches(u: User, q: Lookup)
  {
    match q
    case ById(id) => u.id == id
    case ByEmail(email) => u.email == email
    case ByUsername(name) => u.username == name
  }

  /** `.filter(...).first()`: the earliest matching row, or None. */
  function First(rows: Users, q: Lookup): (r: Option<User>)
    ensures r.None? <==> forall i :: 0 <= i < |rows| ==> !Matches(rows[i], q)
    ensures r.Some? ==> exists i :: 0 <= i < |rows| && rows[i] == r.value && Matches(r.value, q)
                                    && forall j :: 0 <= j < i ==> !Matches(rows[j], q)
  {
    if |rows| == 0 then None
    else if Matches(rows[0], q) then Some(rows[0])
    else
      var r := First(rows[1..], q);
      assert r.Some? ==> exists i :: 0 <= i < |rows| && rows[i] == r.value && Matches(r.value, q)
                                     && forall j :: 0 <= j < i ==> !Matches(rows[j], q) by {
        if r.Some? {
          var i :| 0 <= i < |rows[1..]| && rows[1..][i] == r.value && Matches(r.value, q)
                   && forall j :: 0 <= j < i ==> !Matches(rows[1..][j], q);
          assert rows[i + 1] == r.value;
          forall j | 0 <= j < i + 1 ensures !Matches(rows[j], q) {
            if j > 0 { assert rows[j] == rows[1..][j - 1]; }
          }
        }
      }
      assert r.None? ==> forall i :: 0 <= i < |rows| ==> !Matches(rows[i], q) by {
        if r.None? {
          forall i | 0 <= i < |rows| ensures !Matches(rows[i], q) {
            if i > 0 { assert rows[i] == rows[1..][i - 1]; }
          }
        }
      }
      r
  }

  /** Once one row matches, `First` returns the earliest such row. */
  lemma FirstIsEarliest(rows: Users, q: Lookup, i: int)
    requires 0 <= i < |rows| && Matches(rows[i], q)
    requires forall j :: 0 <= j < i ==> !Matches(rows[j], q)
    ensures First(rows, q) == Some(rows[i])
  {
    var r := First(rows, q);
    var k :| 0 <= k < |rows| && rows[k] == r.value && Matches(r.value, q)
             && forall j :: 0 <= j < k ==> !Matches(rows[j], q);
    assert k == i;
  }

  /** `FirstIsEarliest` for every index at once. */
  lemma FirstIsEarliestEverywhere(rows: Users, q: Lookup)
    ensures forall i :: 0 <= i < |rows| && Matches(rows[i], q) && (forall j :: 0 <= j < i ==> !Matches(rows[j], q))
                        ==> First(rows, q) == Some(rows[i])
  {
    forall i | 0 <= i < |rows| && Matches(rows[i], q) && (forall j :: 0 <= j < i ==> !Matches(rows[j], q)) {
      FirstIsEarliest(rows, q, i);
    }
  }

  /** get_user_by_id: the earliest row with that id, or None. */
  function GetUserById(rows: Users, id: int): (r: Option<User>)
    ensures r.None? <==> forall i :: 0 <= i < |rows| ==> rows[i].id != id
    ensures r.Some? ==> r.value in rows && r.value.id == id
    ensures forall i :: 0 <= i < |rows| && rows[i].id == id && (forall j :: 0 <= j < i ==> rows[j].id != id)
                        ==> r == Some(rows[i])
  {
    FirstIsEarliestEverywhere(rows, ById(id));
    First(rows, ById(id))
  }

  /** get_user_by_email: the earliest row with that email, or None. */
  function GetUserByEmail(rows: Users, email: string): (r: Option<User>)
    ensures r.None? <==> forall i :: 0 <= i < |rows| ==> rows[i].email != email
    ensures r.Some? ==> r.value in rows && r.value.email == email
    ensures forall i :: 0 <= i < |rows| && rows[i].email == email && (forall j :: 0 <= j < i ==> rows[j].email != email)
                        ==> r == Some(rows[i])
  {
    FirstIsEarliestEverywhere(rows, ByEmail(email));
    First(rows, ByEmail(email))
  }

  /** get_user_by_username: the earliest row with that username, or None. */
  function GetUserByUsername(rows: Users, username: string): (r: Option<User>)
    ensures r.None? <==> forall i :: 0 <= i < |rows| ==> rows[i].username != username
    ensures r.Some? ==> r.value in rows && r.value.username == username
    ensures forall i :: 0 <= i < |rows| && rows[i].username == username
                        && (forall j :: 0 <= j < i ==> rows[j].username != username)
                        ==> r == Some(rows[i])
  {
    FirstIsEarliestEverywhere(rows, ByUsername(username));
    First(rows, ByUsername(username))
  }

  /** The stored active flag read with Python truthiness (NULL is falsy). */
  predicate IsActive(u: User)
  {
    u.isActive == Some(true)
  }

  // ---------------------------------------------------------------------
  // Paging: `.limit(per_page).offset((page - 1) * per_page)`.

  /** The defaults of `get_all_users`. */
  const DefaultPage: int := 1
  const DefaultPerPage: int := 100

  function Offset(page: int, perPage: int): int
  {
    (page - 1) * perPage
  }

  function Min(a: int, b: int): int
  {
    if a <= b then a else b
  }

  /** get_all_users. PostgreSQL rejects a negative LIMIT or OFFSET, which
      reaches the client as an unhandled database error. */
  function GetAllUsers(rows: Users, page: int, perPage: int): (r: Result<Users>)
    ensures r.Ok? <==> perPage >= 0 && Offset(page, perPage) >= 0
    ensures r.Ok? ==> |r.value| <= perPage
    ensures r.Ok? ==> |r.value| == if Offset(page, perPage) >= |rows| then 0
                                   else Min(perPage, |rows| - Offset(page, perPage))
    ensures r.Ok? ==> forall i :: 0 <= i < |r.value| ==> r.value[i] == rows[Offset(page, perPage) + i]
  {
    var offset := Offset(page, perPage);
    if perPage < 0 || offset < 0 then Err(Internal("negative LIMIT or OFFSET"))
    else Ok(rows[Min(offset, |rows|)..Min(offset + perPage, |rows|)])
  }

  /** The rows of pages 1..k, concatenated. */
  function FirstPages(rows: Users, k: nat, perPage: nat): Users
  {
    if k == 0 then [] else FirstPages(rows, k - 1, perPage) + GetAllUsers(rows, k, perPage).value
  }

  /** Page 1 starts at the first row. */
  lemma PageOneIsPrefix(rows: Users, perPage: nat)
    ensures GetAllUsers(rows, 1, perPage) == Ok(rows[..Min(perPage, |rows|)])
  {
  }

  /** Called with its defaults, get_all_users lists the first 100 rows. */
  lemma DefaultListingIsPrefix(rows: Users)
    ensures GetAllUsers(rows, DefaultPage, DefaultPerPage) == Ok(rows[..Min(100, |rows|)])
  {
    PageOneIsPrefix(rows, DefaultPerPage);
  }

  /** Pages p and p+1 are adjacent slices: together they are the rows from
      page p's offset on, two pages long, with no row repeated or skipped. */
  lemma PagesAreContiguous(rows: Users, page: int, perPage: nat)
    requires page >= 1
    ensures var o := Offset(page, perPage);
            GetAllUsers(rows, page, perPage).value + GetAllUsers(rows, page + 1, perPage).value
            == rows[Min(o, |rows|)..Min(o + 2 * perPage, |rows|)]
  {
    var o := Offset(page, perPage);
    var n := |rows|;
    assert o >= 0 by { assert (page - 1) * perPage >= 0 by { MulNonNegative(page - 1, perPage); } }
    assert Offset(page + 1, perPage) == o + perPage;
    var a, b, c := Min(o, n), Min(o + perPage, n), Min(o + 2 * perPage, n);
    assert GetAllUsers(rows, page, perPage).value == rows[a..b];
    assert GetAllUsers(rows, page + 1, perPage).value == rows[b..c];
    assert rows[a..b] + rows[b..c] == rows[a..c];
  }

  lemma MulNonNegative(x: int, y: int)
    requires x >= 0 && y >= 0
    ensures x * y >= 0
  {
  }

  /** Reading pages 1..k in turn yields exactly the first k * per_page rows. */
  lemma {:induction false} FirstPagesArePrefix(rows: Users, k: nat, perPage: nat)
    ensures FirstPages(rows, k, perPage) == rows[..Min(k * perPage, |rows|)]
  {
    if k > 0 {
      FirstPagesArePrefix(rows, k - 1, perPage);
      assert Offset(k, perPage) == (k - 1) * perPage;
      assert rows[..Min((k - 1) * perPage, |rows|)] + rows[Min((k - 1) * perPage, |rows|)..Min(k * perPage, |rows|)]
             == rows[..Min(k * perPage, |rows|)];
    }
  }

  // ---------------------------------------------------------------------
  // app/auth/crud.py

  /** check_username_is_taken: 400 USERNAME_TAKEN iff a row has that username. */
  function CheckUsernameIsTaken(rows: Users, username: string): (r: Result<bool>)
    ensures r.Err? <==> exists i :: 0 <= i < |rows| && rows[i].username == username
    ensures r.Err? ==> FailedWith(r, BadRequest, UsernameTaken)
    ensures r.Ok? ==> r.value == false
  {
    if First(rows, ByUsername(username)).Some? then Raise(BadRequest, UsernameTaken) else Ok(false)
  }

  /** check_email_is_taken: 400 EMAIL_TAKEN iff a row has that email. */
  function CheckEmailIsTaken(rows: Users, email: string): (r: Result<bool>)
    ensures r.Err? <==> exists i :: 0 <= i < |rows| && rows[i].email == email
    ensures r.Err? ==> FailedWith(r, BadRequest, EmailTaken)
    ensures r.Ok? ==> r.value == false
  {
    if First(rows, ByEmail(email)).Some? then Raise(BadRequest, EmailTaken) else Ok(false)
  }

  /** The `is_active` column defaults: `default=False` on the users model of
      app/modules/users/models.py, `default=True` on the older one of
      app/models/user.py. */
  const ModuleActiveDefault: bool := false
  const LegacyActiveDefault: bool := true

  /** create_new_user: the table gains exactly one row, holding the input's
      username and email and the bcrypt hash of its password. A form that
      leaves `is_active` out carries None, which the ORM leaves out of the
      INSERT, so the column default `activeDefault` is stored. `id` is the
      key the database assigns and `salt` bcrypt's random salt. */
  function CreateNewUser(rows: Users, h: Hasher, input: UserCreate, id: int, salt: nat, activeDefault: bool)
    : (r: (Users, User))
    ensures r.0 == rows + [r.1]
    ensures r.1.id == id && r.1.username == input.username && r.1.email == input.email
    ensures input.isActive.Some? ==> r.1.isActive == input.isActive
    ensures input.isActive.None? ==> r.1.isActive == Some(activeDefault)
    ensures r.1.password == h.hash(input.password, salt)
  {
    var active := if input.isActive.Some? then input.isActive else Some(activeDefault);
    var u := User(id, input.username, input.email, h.hash(input.password, salt), active);
    (rows + [u], u)
  }
}

=== FILE: user_endpoints.dfy ===
/** app/api/endpoints/user.py, an earlier snapshot of the user routes. Its
    current-user lookup uses the raw `sub` claim (no `TokenData`) and answers
    404 for an unknown user where `check_jwt` answers 401; its uniqueness
    checks are the lookups of app/crud/auth.py, whose truthy result the
    route turns into the 400. app/crud/user.py is not part of this model;
    its `create_new_user` is taken to be the one of app/crud/login.py,
    whose model (app/models/user.py) defaults `is_active` to True. */
module UserEndpoints {
  import opened Outcome
  import opened Crypto
  import opened UserCrud
  import Security
  import AuthSchema
  import AuthV1

  /** get_current_user: 401 for a bad token or a missing `sub`, 404
      USER_NOT_FOUND when no user has the subject as username. */
  function GetCurrentUser(codec: Codec, rows: Users, token: string, now: int): (r: Result<User>)
    ensures Security.Subject(codec, token, now).None? ==> r == Err(Security.CredentialsException)
    ensures Security.Subject(codec, token, now).Some? ==>
              var sub := Security.Subject(codec, token, now).value;
              && ((forall i :: 0 <= i < |rows| ==> rows[i].username != sub) <==> FailedWith(r, NotFound, UserNotFound))
              && ((exists i :: 0 <= i < |rows| && rows[i].username == sub) ==> r.Ok?)
              && (r.Ok? ==> r.value in rows && r.value.username == sub)
              && (forall i :: 0 <= i < |rows| && rows[i].username == sub
                              && (forall j :: 0 <= j < i ==> rows[j].username != sub)
                              ==> r == Ok(rows[i]))
  {
    match Security.Subject(codec, token, now)
    case None => Err(Security.CredentialsException)
    case Some(sub) =>
      match GetUserByUsername(rows, sub)
      case None => Raise(NotFound, UserNotFound)
      case Some(u) => Ok(u)
  }

  /** check_username_is_taken / check_email_is_taken of app/crud/auth.py:
      the first row with that value, or None. */
  function UsernameTakenBy(rows: Users, username: string): Option<User>
  {
    GetUserByUsername(rows, username)
  }

  function EmailTakenBy(rows: Users, email: string): Option<User>
  {
    GetUserByEmail(rows, email)
  }

  /** create_user: username checked before email, each a 400. */
  function CreateUser(rows: Users, h: Hasher, input: UserCreate, id: int, salt: nat): (r: Result<(Users, User)>)
    ensures (exists i :: 0 <= i < |rows| && rows[i].username == input.username) ==> FailedWith(r, BadRequest, UsernameTaken)
    ensures (forall i :: 0 <= i < |rows| ==> rows[i].username != input.username)
            && (exists i :: 0 <= i < |rows| && rows[i].email == input.email)
            ==> FailedWith(r, BadRequest, EmailTaken)
    ensures r.Ok? <==> forall i :: 0 <= i < |rows| ==> rows[i].username != input.username && rows[i].email != input.email
    ensures r.Ok? ==> r.value.0 == rows + [r.value.1] && r.value.1.username == input.username
                      && r.value.1.email == input.email
                      && r.value.1.isActive == if input.isActive.Some? then input.isActive else Some(true)
  {
    if UsernameTakenBy(rows, input.username).Some? then Raise(BadRequest, UsernameTaken)
    else if EmailTakenBy(rows, input.email).Some? then Raise(BadRequest, EmailTaken)
    else Ok(CreateNewUser(rows, h, input, id, salt, LegacyActiveDefault))
  }

  /** get_specific_user: 404 USER_NOT_FOUND for an unknown id. */
  function GetSpecificUser(rows: Users, id: int): (r: Result<User>)
    ensures r.Err? <==> forall i :: 0 <= i < |rows| ==> rows[i].id != id
    ensures r.Err? ==> FailedWith(r, NotFound, UserNotFound)
    ensures r.Ok? ==> r.value in rows && r.value.id == id
  {
    match GetUserById(rows, id)
    case None => Raise(NotFound, UserNotFound)
    case Some(u) => Ok(u)
  }

  /** The truthy-lookup signup of this snapshot and the raising checks of
      app/auth/crud.py answer every request alike once registration is open.
      The rows they add differ only when the form leaves `is_active` out:
      the older users model then stores an active user, the newer one an
      inactive one. */
  lemma SignupVariantsAgree(rows: Users, h: Hasher, input: UserCreate, id: int, salt: nat)
    ensures var legacy := CreateUser(rows, h, input, id, salt);
            var v1 := AuthV1.CreateUser(rows, true, h, input, id, salt);
            && (legacy.Ok? <==> v1.Ok?)
            && (legacy.Err? ==> legacy == v1)
            && (input.isActive.Some? ==> legacy == v1)
            && (input.isActive.None? && legacy.Ok? ==>
                  && v1.value.1.isActive == Some(false)
                  && legacy.value.1 == v1.value.1.(isActive := Some(true))
                  && legacy.value.0 == rows + [legacy.value.1])
  {
  }

  /** The two gates differ on a valid token for an unknown user: 401 from
      `check_jwt`, 404 here. For a known user whose name is in the normal
      form `TokenData` produces, both succeed with the same user. */
  lemma GatesDifferOnUnknownUser(codec: Codec, rows: Users, token: string, now: int)
    requires Security.Subject(codec, token, now).Some?
    requires AuthSchema.IsNormalUsername(Security.Subject(codec, token, now).value)
    ensures var sub := Security.Subject(codec, token, now).value;
            (forall i :: 0 <= i < |rows| ==> rows[i].username != sub) ==>
              && Security.CheckJwt(codec, rows, token, now) == Err(Security.CredentialsException)
              && FailedWith(GetCurrentUser(codec, rows, token, now), NotFound, UserNotFound)
    ensures var sub := Security.Subject(codec, token, now).value;
            (exists i :: 0 <= i < |rows| && rows[i].username == sub) ==>
              && GetCurrentUser(codec, rows, token, now).Ok?
              && Security.CheckJwt(codec, rows, token, now) == GetCurrentUser(codec, rows, token, now)
  {
    Security.CheckJwtNormalSubject(codec, rows, token, now);
  }
}
